=== FILE: README.md ===
# Reminder, prompt and export handlers of the todo-app backend, in Dafny

This project models three Cloud Functions of the todo-app backend:

- **The reminder scheduler** (`sendScheduledReminders`). It runs every five minutes. It walks all users in order. For each user it reads the calendar events whose `startAt` is not before now, and for each such event it reads the reminder rules. A rule's reminder time is the event start minus `value` minutes, hours or days. A rule fires when its reminder time lies in the closed window `[now, now + 300000]` ms. A fired rule builds one push notification for its user. That notification is handed to `sendFCMNotification`, which does nothing when the user has no device token and catches a failed send.
- **The meeting-message generator** (`generateMeetingMessage`). It rejects unauthenticated callers. It fails with an internal error when an id does not make a document path, and it rejects requests whose event or rule-set document is missing. It builds the prompt (`buildPrompt`), refuses to run without an API key, and stores the generated text, falling back to "Mesaj üretilemedi." when the generator returns nothing.
- **The spreadsheet export** (`exportToSheets`). It rejects unauthenticated callers. It reshapes a user's five collections into six sheets: open and completed tasks split the collection of tasks, missing optional fields (descriptions, dates, category) become "", and message content is cut to 200 characters. It records a job whose summary counts the rows and lists the sheet names.

Modules:

| file | module | contents |
|---|---|---|
| `wrappers.dfy` | `Wrappers` | `Option`, `Result` |
| `callable.dfy` | `Callable` | the callable-function error and the shared "unauthenticated" error |
| `text.dfy` | `Text` | JavaScript truthiness, `a \|\| b`, template interpolation of undefined, `join`, `substring(0, n)`, integer rendering with its parser |
| `reminder_rules.dfy` | `ReminderRules` | `calculateReminderTime`, the window test, `unitToTurkish`, the notification of one rule |
| `event_query.dfy` | `EventQuery` | the store query on a user's calendar events: the `startAt >= now` filter and the order the store returns the matches in |
| `reminder_tick.dfy` | `ReminderTick` | the three nested loops as functions and as methods, the send decision |
| `document_path.dfy` | `DocumentPath` | the store client's rule for document paths: segments, "//", an even segment count |
| `meeting_message.dfy` | `MeetingMessage` | `buildPrompt` and the handler's decisions |
| `sheets_export.dfy` | `SheetsExport` | `sheetsData`, `resultMeta`, the handler |

How the external world appears in the model:

- Instants are integer milliseconds.
- The store is an input: a sequence of users holding their events for the scheduler, and maps keyed by user and document id for the two callable functions. The order of a sequence stands for the order in which the store returns documents. The one exception is the scheduler's event query. It has a range filter on `startAt`, so Firestore returns its matches ordered by `startAt` and then by document id. `EventQuery.UpcomingEvents` sorts into that order.
- The push channel is a parameter `accepts(k, token, notification)`. It returns false when the `k`-th hand-over of the tick would throw. The position `k` lets two identical sends in one tick get different answers.
- The text generator is a parameter `complete(prompt)`. It either rejects, meaning the call throws, or completes with the content of the first choice, if there is one.
- An optional request field is left out, sent as `null`, or sent with a value (`MeetingMessage.Supplied`), because a destructuring default replaces only a left-out field.
- `db.doc(path)` throws, before anything is read, unless the path has no "//" and an even, non-zero number of non-empty segments (`DocumentPath.ValidDocumentPath`). The handler does not catch that throw, so the callable wrapper reports it as an internal error.
- Rendered dates are opaque strings: the ISO 8601 text of a field that is set.

Behaviour of the code worth knowing (the model follows it):

- The window test is closed at both ends (`>=` and `<=`), not half-open. Since ticks are five minutes apart, a reminder time that falls exactly on the boundary between two ticks lies in both windows. `ReminderRules.ContiguousTicksShareBoundary` states this.
- Users are scanned one after another, with no concurrency. A failed send is caught inside `sendFCMNotification`, so it never stops the tick. Any other failure, such as a failed store read, is not caught per user.
- Nothing checks that a rule's `value` is non-negative or that its unit is known. An unknown unit gives offset 0, so the reminder time is the event start.
- Nothing records which reminders were already sent.
- The request's `messageType` defaults to "orta" only when it is left out. So the rule set's `lengthTarget` reaches the prompt only when the caller sends `messageType` as `null` or as an empty string.
- The event and rule-set ids are put into the document paths unchecked. An empty id, or one whose slashes leave the path with an odd number of segments, makes `db.doc` throw, and the caller gets an internal error rather than "not-found".
- A failed call to the text generator is not caught. The callable wrapper reports it to the caller as an internal error, and no message is stored.

## Model

All source paths are under `backend/functions/src/`.

| member | source | states |
|---|---|---|
| ReminderRules.ReminderTime | backend/functions/src/scheduledReminders.ts:49-67 | a minute, hour or day rule reminds exactly value·60000, value·3600000 or value·86400000 ms before the start; an unknown unit reminds at the start; a non-negative value never reminds after the start, and a positive value with a known unit reminds strictly before it |
| ReminderRules.ReminderTimeDeterminesValue | backend/functions/src/scheduledReminders.ts:53-66 | for a known unit, the gap between start and reminder time is a whole number of units, and that number is the rule's value |
| ReminderRules.ReminderTimeStrictlyAntitone | backend/functions/src/scheduledReminders.ts:53-66 | with the same known unit, a larger value reminds strictly earlier |
| ReminderRules.Fires | backend/functions/src/scheduledReminders.ts:31-35 | the window test: a rule fires when its reminder time lies in the closed window from now to five minutes later; `FiresIffStartInShiftedWindow` and `WindowBoundaries` state its properties |
| ReminderRules.FiresIffStartInShiftedWindow | backend/functions/src/scheduledReminders.ts:31-35 | a rule fires exactly when the event start lies in the window shifted later by the rule's offset |
| ReminderRules.WindowBoundaries | backend/functions/src/scheduledReminders.ts:32-35 | both ends of the window are included; one millisecond outside either end is excluded |
| ReminderRules.ContiguousTicksShareBoundary | backend/functions/src/scheduledReminders.ts:6-12 | two ticks one window apart share exactly one instant, their common boundary |
| ReminderRules.UnitLabel | backend/functions/src/scheduledReminders.ts:69-80 | minute, hour and day become dakika, saat and gün; any other unit name is returned unchanged |
| ReminderRules.LabelTranslatesIffTimed | backend/functions/src/scheduledReminders.ts:55-79 | the label switch translates a unit exactly when the offset switch gives it a non-zero length |
| ReminderRules.ReminderNotification | backend/functions/src/scheduledReminders.ts:36-40 | the title is "Yaklaşan etkinlik: " followed by the event title, with "undefined" when the title is absent; the body ends with " sonra başlayacak"; the data payload has exactly the keys eventId and type, holding the event id and "calendar_event" |
| ReminderRules.BodyNamesValueAndUnit | backend/functions/src/scheduledReminders.ts:38 | the body's first word reads back as the rule's value, and the rest of the body is the unit label followed by " sonra başlayacak" |
| Text.IntRoundTrip | backend/functions/src/scheduledReminders.ts:38 | the decimal rendering of any integer, negative ones included, parses back to that integer |
| EventQuery.UpcomingEvents | backend/functions/src/scheduledReminders.ts:19-22 | the query: the events whose start is set and not before now, sorted by start and then by document id; `UpcomingEventsMembers` and `UpcomingEventsInQueryOrder` state what it returns |
| EventQuery.UpcomingEventsMembers | backend/functions/src/scheduledReminders.ts:19-22 | the query returns exactly the events that have a start not before now |
| EventQuery.UpcomingEventsInQueryOrder | backend/functions/src/scheduledReminders.ts:19-22 | the query returns every matching event exactly as often as the collection holds it, ordered by start and then by document id, so starts never decrease along the result |
| EventQuery.ArrangeMultiset | backend/functions/src/scheduledReminders.ts:19-22 | sorting into query order keeps every event, each as often as before |
| EventQuery.ArrangeInQueryOrder | backend/functions/src/scheduledReminders.ts:19-22 | the sorted result has no event ordered before the one ahead of it |
| EventQuery.IdBeforeTotal | backend/functions/src/scheduledReminders.ts:19-22 | two different document ids are always ordered one way or the other, so ties on the start are broken |
| EventQuery.RemoveSkipped | backend/functions/src/scheduledReminders.ts:19-22 | dropping one occurrence of an event from the collection changes the query result only in that event's occurrences |
| ReminderTick.EventNotifications | backend/functions/src/scheduledReminders.ts:26-42 | an event without a start, or without rules, yields no notification; an event with a start yields exactly one notification per firing rule |
| ReminderTick.RuleNotificationsOnePerFiringRule | backend/functions/src/scheduledReminders.ts:30-42 | the rule loop yields as many notifications as there are rule positions whose reminder time is in the window, one per firing rule |
| ReminderTick.RuleNotificationsMembers | backend/functions/src/scheduledReminders.ts:30-42 | a notification comes out of an event's rules exactly when some rule fires and builds it |
| ReminderTick.EventDispatchesMembers | backend/functions/src/scheduledReminders.ts:24-43 | a dispatch comes out of a user's events exactly when it is addressed to that user and some event yields its notification |
| ReminderTick.Scan | backend/functions/src/scheduledReminders.ts:14-44 | the dispatches of one tick: each user's in user order, and for each user those of the queried events in query order; `ScanExactlyTheDueRules` characterises them and `ScanAppend` states the order |
| ReminderTick.ScanExactlyTheDueRules | backend/functions/src/scheduledReminders.ts:14-44 | a dispatch is produced exactly when some user has an event that the query returns with a rule whose reminder time is in the window; the dispatch is addressed to that user and built from that event and rule |
| ReminderTick.ScanAppend | backend/functions/src/scheduledReminders.ts:16-44 | users are scanned in order: the scan of two runs of users is the first run's dispatches followed by the second's |
| ReminderTick.EventDispatchesRemove | backend/functions/src/scheduledReminders.ts:24-43 | removing every occurrence of an event that yields no notification leaves a user's dispatches unchanged |
| ReminderTick.SkippedEventYieldsNothing | backend/functions/src/scheduledReminders.ts:26-29 | removing an event that the query does not return, or that has no rules, leaves the user's dispatches unchanged, and the events around it are still scanned |
| ReminderTick.TokenOf | backend/functions/src/scheduledReminders.ts:86-87 | a token that is found belongs to a user document with that id |
| ReminderTick.TokenOfOwnUser | backend/functions/src/scheduledReminders.ts:86-87 | when user ids are distinct, the lookup under a user's own id gives that user's token |
| ReminderTick.SendFcm | backend/functions/src/scheduledReminders.ts:82-107 | a send is attempted exactly when the token is set and non-empty; an attempt uses that token; it is delivered exactly when the channel accepts that hand-over, given by its position in the tick, its token and its notification, and it fails otherwise without raising |
| ReminderTick.FailuresDoNotStopTheTick | backend/functions/src/scheduledReminders.ts:91-106 | whatever the channel answers, every dispatch of the scan gets exactly one outcome, in order, for the same user and notification; a send is attempted exactly when that user has a token, and the i-th send is delivered exactly when the channel accepts the i-th hand-over |
| ReminderTick.NoTokenNoSend | backend/functions/src/scheduledReminders.ts:89 | a user whose token is absent or empty gets no send attempt in the whole tick |
| ReminderTick.RunRules | backend/functions/src/scheduledReminders.ts:30-42 | the rule loop hands over the firing rules' notifications, in rule order, at consecutive positions of the tick |
| ReminderTick.RunEvents | backend/functions/src/scheduledReminders.ts:24-43 | the event loop hands over the notifications of the events in order, at consecutive positions of the tick, skipping events without a start |
| ReminderTick.RunUser | backend/functions/src/scheduledReminders.ts:19-43 | a user's hand-overs are those of the events the query returns, in query order |
| ReminderTick.RunTick | backend/functions/src/scheduledReminders.ts:14-46 | the user loop's outcomes are exactly the outcomes of the tick's whole scan, in order |
| MeetingMessage.BuildPrompt | backend/functions/src/generateMeetingMessage.ts:93-141 | `buildPrompt`: the prompt lines joined by line breaks; `PromptLines`, `ConditionalLinesInPushOrder`, `ConditionalLinesAppearIff`, `MissingFieldsFallBack` and `PromptFrame` state its content |
| MeetingMessage.PromptLines | backend/functions/src/generateMeetingMessage.ts:99-138 | the prompt has the thirteen fixed lines first, then the conditional lines, then a blank line and the closing instruction last |
| MeetingMessage.ConditionalLinesInPushOrder | backend/functions/src/generateMeetingMessage.ts:115-138 | the conditional lines follow the fixed lines in push order: fixed phrases, then banned words, then custom instructions, each at the position the earlier present lines leave; the user note comes right after its blank line, before the final blank line and closing instruction |
| MeetingMessage.OptionalLinesCount | backend/functions/src/generateMeetingMessage.ts:115-133 | the conditional lines are one line each for fixed phrases, banned words and custom instructions when present, plus two lines for a user note |
| MeetingMessage.MissingFieldsFallBack | backend/functions/src/generateMeetingMessage.ts:99-113 | the prompt opens with the header and the event heading; a missing or empty date, description or greeting style shows "Belirtilmemiş", "Yok" or "Genel" |
| MeetingMessage.PromptFrame | backend/functions/src/generateMeetingMessage.ts:99-140 | the joined prompt starts with the header line and a line break, and ends with an empty line followed by the closing instruction |
| MeetingMessage.BaseLinesUnlabelled | backend/functions/src/generateMeetingMessage.ts:99-113 | none of the thirteen fixed lines starts with a conditional line's label |
| MeetingMessage.ConditionalLinesAppearIff | backend/functions/src/generateMeetingMessage.ts:115-133 | each conditional line appears exactly once when its condition holds and not at all otherwise: fixed phrases joined by "; ", banned words joined by ", ", custom instructions, and the user note |
| MeetingMessage.GenerateMeetingMessage | backend/functions/src/generateMeetingMessage.ts:14-90 | an unauthenticated call fails first; then an id that does not make a document path fails as an internal error; then a missing event or rule set fails as not found, then a missing API key, then a rejected generator call as an internal error; otherwise the call succeeds; on success the prompt is built with the message type after its default, the content is the generator's text or "Mesaj üretilemedi." when that is empty, and the stored message is titled "<event title> - Mesaj", holds the content and both ids, and is neither favourite nor archived |
| MeetingMessage.PathsValidIff | backend/functions/src/generateMeetingMessage.ts:26-29 | for a user id without slashes, both paths name documents exactly when each id has an odd number of segments, no "//" and no leading '/'; ids without slashes work exactly when neither is empty |
| MeetingMessage.EmptyIdIsInternal | backend/functions/src/generateMeetingMessage.ts:26-29 | an empty event or rule-set id gives an internal error, whatever the store holds |
| DocumentPath.NestedPath | backend/functions/src/generateMeetingMessage.ts:27-28 | a path built from three single segments and an id has those three segments followed by the id's, and has "//" exactly when the id has one or starts with '/' |
| DocumentPath.NestedDocumentPathValid | backend/functions/src/generateMeetingMessage.ts:27-28 | such a path names a document exactly when the id has an odd number of segments, no "//" and no leading '/' |
| DocumentPath.PlainIds | backend/functions/src/generateMeetingMessage.ts:27-28 | for an id without slashes, the path names a document exactly when the id is not empty |
| MeetingMessage.MessageTypeOrDefault | backend/functions/src/generateMeetingMessage.ts:24 | a left-out message type becomes "orta", one sent as `null` stays absent, and one sent with a value keeps it |
| MeetingMessage.LengthTargetOnlyForEmptyOrNullMessageType | backend/functions/src/generateMeetingMessage.ts:112 | a left-out message type shows "orta" on the length line and a non-empty one shows as given; only one sent as `null` or empty lets the rule set's length target through |
| SheetsExport.BuildSheets | backend/functions/src/exportToSheets.ts:25-68 | `sheetsData`: the six sheets built from the user's five collections; the sheet functions below and `TaskSheetsPartitionIds` state each sheet's rows |
| SheetsExport.TaskFiltersSelect | backend/functions/src/exportToSheets.ts:26-41 | the open filter keeps exactly those tasks that are not completed, and the completed filter keeps exactly the completed ones |
| SheetsExport.TasksPartition | backend/functions/src/exportToSheets.ts:26-41 | the two filters together hold every task exactly as often as the collection does, so their sizes add up to the collection's size |
| SheetsExport.TaskFiltersAppend | backend/functions/src/exportToSheets.ts:26-41 | both filters keep the collection's order |
| SheetsExport.TaskIdsPartition | backend/functions/src/exportToSheets.ts:26-41 | the ids of open tasks and completed tasks together make up the collection's ids, each exactly once |
| SheetsExport.TodoSheet | backend/functions/src/exportToSheets.ts:26-34 | Tasks_Todo has one row per open task, in order |
| SheetsExport.DoneSheet | backend/functions/src/exportToSheets.ts:35-41 | Tasks_Done has one row per completed task, in order |
| SheetsExport.TaskSheetsPartitionIds | backend/functions/src/exportToSheets.ts:26-41 | the row ids of Tasks_Todo and Tasks_Done together are all task ids, each exactly once |
| SheetsExport.ActivitySheet | backend/functions/src/exportToSheets.ts:42-48 | one row per activity, in order, with id and title copied; a description, date or category that is set is copied, and a missing one becomes "" |
| SheetsExport.EventSheet | backend/functions/src/exportToSheets.ts:49-54 | one row per event, in order, with id and title copied; a start or end that is set is copied, and a missing one becomes "" |
| SheetsExport.RuleSetSheet | backend/functions/src/exportToSheets.ts:55-61 | one row per rule set, in order, with id, name, category, tone and emoji policy copied unchanged |
| SheetsExport.ContentPreview | backend/functions/src/exportToSheets.ts:65 | the preview has at most 200 characters and is a prefix of the content; it is the whole content when that is no longer than 200, exactly 200 characters otherwise, and "" when the content is absent |
| SheetsExport.MessageSheet | backend/functions/src/exportToSheets.ts:62-67 | one row per message, in order, with id and title copied, the content previewed, and the creation date copied when set and shown as "" when missing |
| SheetsExport.Meta | backend/functions/src/exportToSheets.ts:82-88 | `resultMeta`: the sum of the sheet lengths and the sheet names; `TotalRowsCountsDocuments` states that the sum counts every document read |
| SheetsExport.TotalRowsCountsDocuments | backend/functions/src/exportToSheets.ts:82-88 | the job's total row count equals the number of documents read across the five collections, and the sheet names come in declaration order |
| SheetsExport.ExportToSheets | backend/functions/src/exportToSheets.ts:6-95 | a call fails exactly when it is unauthenticated; otherwise it succeeds with the caller's sheets and a completed "export_sheets" job whose summary is computed from those sheets |
| SheetsExport.UnauthenticatedReadsNothing | backend/functions/src/exportToSheets.ts:8-13 | an unauthenticated call gets the same rejection whatever the store holds |

## Left out

- Store I/O: documents are inputs. The order a query returns them in is taken as the order of the input sequence. The scheduler reads the token again for every notification. That second read is modelled as a lookup in the same user snapshot, so a token changed during the tick is not modelled.
- The push message payload (the Android priority and APNs alert fields) and the error logging. Only the token, the notification and whether the channel accepts it are kept.
- The text-generation call (model name, system message, `max_tokens`, temperature): the generator is the parameter `complete`.
- The write of the generated message: it is store I/O. A failed write is not modelled.
- Text.Show: an absent value renders as "undefined". JavaScript renders a `null` field as "null", so an event title stored as `null` gives "null" in the notification title, the prompt and the stored message title, which the model does not show.
- Firestore's order of document ids: `EventQuery.IdBefore` compares ids character by character. Firestore's own ordering of document keys is not part of this model.
- The Pub/Sub schedule: each tick is a call at a given `now`. Nothing models how far apart real ticks run.
- Timestamp conversion and ISO 8601 rendering: instants are integer milliseconds, and rendered dates are opaque strings.
- JavaScript number semantics: a rule's `value` is an integer. Fractional values, `NaN`, floating-point rounding of the offset, and exponent notation for huge numbers are not modelled.
- `null` versus `undefined` in documents: both are the absent case. The request's `messageType` keeps the difference. A document field of an unexpected type (a string `startAt`, a non-array `fixedPhrases`) is not modelled.
- Text.Take: counts characters, whereas `substring` counts UTF-16 code units, so content with characters outside the Basic Multilingual Plane may be cut at a different point.
- The generated message id, the job id, `serverTimestamp` and the request's `spreadsheetId`: these are store-assigned values or unused inputs.
- DocumentPath.ValidDocumentPath: only the client-side checks that `db.doc` makes before any read are modelled, namely the empty path, "//" and the segment count. An id the server refuses when the read reaches it, such as a reserved name or an over-long path, is treated like any other id.
- The spreadsheet write itself: it is a TODO in the code.
- `exportToDrive.ts` and `index.ts`: they are not part of this model.

=== FILE: callable.dfy ===
/** What the callable handlers share: the error they throw and the check
    that the caller is signed in. */
module Callable {

  /** An error a callable handler throws: a code and a message. */
  datatype HttpsError = HttpsError(code: string, message: string)

  /** Thrown by every callable handler to a caller that is not signed in. */
  const Unauthenticated := HttpsError("unauthenticated", "Giriş yapmanız gerekiyor.")

  /** What the callable wrapper reports to the caller when a handler fails
      with anything other than an `HttpsError`. */
  const Internal := HttpsError("internal", "INTERNAL")
}

=== FILE: document_path.dfy ===
/** Document paths as the store client reads them: segments separated by
    '/'. `db.doc(path)` throws, before anything is read, unless the path has
    no "//" and an even, non-zero number of non-empty segments. */
module DocumentPath {

  predicate SlashFree(s: string) {
    forall i | 0 <= i < |s| :: s[i] != '/'
  }

  /** The segment being read, if it is non-empty. */
  function Piece(cur: string): seq<string> {
    if cur == "" then [] else [cur]
  }

  /** The non-empty segments of `cur + s`, where `cur` is the part of a
      segment already read. */
  function Split(s: string, cur: string): seq<string>
    decreases |s|
  {
    if |s| == 0 then Piece(cur)
    else if s[0] == '/' then Piece(cur) + Split(s[1..], "")
    else Split(s[1..], cur + [s[0]])
  }

  /** The non-empty segments of a path, in order. */
  function Segments(s: string): seq<string> {
    Split(s, "")
  }

  predicate HasDoubleSlash(s: string)
    decreases |s|
  {
    |s| >= 2 && ((s[0] == '/' && s[1] == '/') || HasDoubleSlash(s[1..]))
  }

  /** `db.doc(path)` accepts the path. */
  predicate ValidDocumentPath(p: string) {
    !HasDoubleSlash(p) && |Segments(p)| > 0 && |Segments(p)| % 2 == 0
  }

  /** A run without slashes is one segment, or none when empty. */
  lemma {:induction false} SplitSlashFree(x: string, cur: string)
    requires SlashFree(x)
    ensures Split(x, cur) == Piece(cur + x)
    decreases |x|
  {
    if |x| == 0 {
      assert cur + x == cur;
    } else {
      SplitSlashFree(x[1..], cur + [x[0]]);
      assert cur + [x[0]] + x[1..] == cur + x;
    }
  }

  /** A slash ends the segment being read: what comes after it is split
      on its own. */
  lemma {:induction false} SplitAroundSlash(a: string, cur: string, b: string)
    ensures Split(a + "/" + b, cur) == Split(a, cur) + Segments(b)
    decreases |a|
  {
    if |a| == 0 {
      assert a + "/" + b == "/" + b;
      assert ("/" + b)[1..] == b;
    } else {
      assert (a + "/" + b)[0] == a[0];
      assert (a + "/" + b)[1..] == a[1..] + "/" + b;
      if a[0] == '/' {
        SplitAroundSlash(a[1..], "", b);
      } else {
        SplitAroundSlash(a[1..], cur + [a[0]], b);
      }
    }
  }

  /** Joining two runs with a slash makes "//" exactly when either run has
      one, or the slash meets a slash at the end of the first run or at the
      start of the second. */
  lemma {:induction false} DoubleSlashAroundSlash(a: string, b: string)
    ensures HasDoubleSlash(a + "/" + b) <==>
      HasDoubleSlash(a) || HasDoubleSlash(b) || (|a| > 0 && a[|a| - 1] == '/') || (|b| > 0 && b[0] == '/')
    decreases |a|
  {
    var s := a + "/" + b;
    if |a| == 0 {
      assert s == "/" + b;
      assert s[1..] == b;
    } else {
      assert s[0] == a[0];
      assert s[1..] == a[1..] + "/" + b;
      DoubleSlashAroundSlash(a[1..], b);
      if |a| == 1 {
        assert s[1] == '/';
        assert a[1..] == "";
      } else {
        assert s[1] == a[1];
        assert a[1..][|a| - 2] == a[|a| - 1];
      }
    }
  }

  lemma {:induction false} SlashFreeNoDoubleSlash(x: string)
    requires SlashFree(x)
    ensures !HasDoubleSlash(x)
    decreases |x|
  {
    if |x| >= 2 {
      SlashFreeNoDoubleSlash(x[1..]);
    }
  }

  /** The path `c0/owner/c1/id` of a document named by `id` in the
      collection `c1` under the document `c0/owner`, when the first three
      parts are single segments: its segments are those three followed by
      the segments of `id`, and it has "//" exactly when `id` has one or
      starts with '/'. */
  lemma {:induction false} NestedPath(c0: string, owner: string, c1: string, id: string)
    requires c0 != "" && owner != "" && c1 != ""
    requires SlashFree(c0) && SlashFree(owner) && SlashFree(c1)
    ensures Segments(c0 + "/" + owner + "/" + c1 + "/" + id) == [c0, owner, c1] + Segments(id)
    ensures HasDoubleSlash(c0 + "/" + owner + "/" + c1 + "/" + id) <==>
      HasDoubleSlash(id) || (|id| > 0 && id[0] == '/')
  {
    var p1 := c0 + "/" + owner;
    var p2 := p1 + "/" + c1;
    assert Segments(p1) == [c0, owner] by {
      SplitAroundSlash(c0, "", owner);
      SplitSlashFree(c0, "");
      SplitSlashFree(owner, "");
      assert "" + c0 == c0;
      assert "" + owner == owner;
    }
    assert Segments(p2) == [c0, owner, c1] by {
      SplitAroundSlash(p1, "", c1);
      SplitSlashFree(c1, "");
      assert "" + c1 == c1;
    }
    SplitAroundSlash(p2, "", id);
    SlashFreeNoDoubleSlash(c0);
    SlashFreeNoDoubleSlash(owner);
    SlashFreeNoDoubleSlash(c1);
    DoubleSlashAroundSlash(c0, owner);
    DoubleSlashAroundSlash(p1, c1);
    DoubleSlashAroundSlash(p2, id);
    assert p1[|p1| - 1] == owner[|owner| - 1];
    assert p2[|p2| - 1] == c1[|c1| - 1];
  }

  /** Under a single-segment owner and collection, an id names a document
      exactly when it has an odd number of segments, no "//", and does not
      start with '/'. */
  lemma NestedDocumentPathValid(c0: string, owner: string, c1: string, id: string)
    requires c0 != "" && owner != "" && c1 != ""
    requires SlashFree(c0) && SlashFree(owner) && SlashFree(c1)
    ensures ValidDocumentPath(c0 + "/" + owner + "/" + c1 + "/" + id) <==>
      |Segments(id)| % 2 == 1 && !HasDoubleSlash(id) && !(|id| > 0 && id[0] == '/')
  {
    NestedPath(c0, owner, c1, id);
    ValidUnderThreeSegments(c0 + "/" + owner + "/" + c1 + "/" + id, id);
  }

  /** Three single segments in front shift the count by three, so the
      parity flips. */
  lemma ValidUnderThreeSegments(p: string, id: string)
    requires |Segments(p)| == 3 + |Segments(id)|
    requires HasDoubleSlash(p) <==> HasDoubleSlash(id) || (|id| > 0 && id[0] == '/')
    ensures ValidDocumentPath(p) <==>
      |Segments(id)| % 2 == 1 && !HasDoubleSlash(id) && !(|id| > 0 && id[0] == '/')
  {
  }

  /** The empty id leaves the path one segment short of a document; a
      non-empty id without slashes completes it. */
  lemma PlainIds(c0: string, owner: string, c1: string, id: string)
    requires c0 != "" && owner != "" && c1 != ""
    requires SlashFree(c0) && SlashFree(owner) && SlashFree(c1) && SlashFree(id)
    ensures ValidDocumentPath(c0 + "/" + owner + "/" + c1 + "/" + id) <==> id != ""
  {
    NestedPath(c0, owner, c1, id);
    SplitSlashFree(id, "");
    SlashFreeNoDoubleSlash(id);
    assert "" + id == id;
  }
}

=== FILE: event_query.dfy ===
/** The store query a scheduler tick runs on one user's calendar events,
    `startAt >= now`. The store answers a range query in ascending order of
    the filtered field and then of the document id, so the result is the
    matching events sorted by start, ties broken by id. */
module EventQuery {
  import opened Wrappers
  import opened ReminderRules

  /** A calendar event document: its id, the start instant if the field is
      set, its title if set, and its reminder rules if set. */
  datatype Event = Event(id: string, startAt: Option<int>, title: Option<string>, reminderRules: Option<seq<Rule>>)

  /** The filter `startAt >= now` matches an event: it has a start and that
      start is not before `now`. */
  predicate Upcoming(now: int, e: Event) {
    e.startAt.Some? && e.startAt.value >= now
  }

  /** The events the filter matches, in the order given. */
  function Matching(now: int, events: seq<Event>): (r: seq<Event>)
    ensures |r| <= |events|
    decreases |events|
  {
    if |events| == 0 then []
    else (if Upcoming(now, events[0]) then [events[0]] else []) + Matching(now, events[1..])
  }

  lemma {:induction false} MatchingMembers(now: int, events: seq<Event>, e: Event)
    ensures e in Matching(now, events) <==> e in events && Upcoming(now, e)
    decreases |events|
  {
    if |events| > 0 {
      MatchingMembers(now, events[1..], e);
      assert e in events <==> e == events[0] || e in events[1..];
    }
  }

  lemma {:induction false} MatchingAppend(now: int, a: seq<Event>, b: seq<Event>)
    ensures Matching(now, a + b) == Matching(now, a) + Matching(now, b)
    decreases |a|
  {
    if |a| > 0 {
      assert (a + b)[1..] == a[1..] + b;
      MatchingAppend(now, a[1..], b);
    } else {
      assert a + b == b;
    }
  }

  /** Document ids compare as strings, character by character, a proper
      prefix first. Characters are Unicode scalar values, whose order is the
      order of their UTF-8 encodings. */
  predicate IdBefore(x: string, y: string)
    decreases |x|
  {
    if |x| == 0 then |y| > 0
    else if |y| == 0 then false
    else x[0] < y[0] || (x[0] == y[0] && IdBefore(x[1..], y[1..]))
  }

  lemma {:induction false} IdBeforeIrreflexive(x: string)
    ensures !IdBefore(x, x)
    decreases |x|
  {
    if |x| > 0 {
      IdBeforeIrreflexive(x[1..]);
    }
  }

  lemma {:induction false} IdBeforeTransitive(x: string, y: string, z: string)
    requires IdBefore(x, y) && IdBefore(y, z)
    ensures IdBefore(x, z)
    decreases |x|
  {
    if |x| > 0 && x[0] == y[0] && y[0] == z[0] {
      IdBeforeTransitive(x[1..], y[1..], z[1..]);
    }
  }

  /** Two different ids are always ordered one way or the other. */
  lemma {:induction false} IdBeforeTotal(x: string, y: string)
    requires x != y
    ensures IdBefore(x, y) || IdBefore(y, x)
    decreases |x|
  {
    if |x| > 0 && |y| > 0 && x[0] == y[0] {
      assert x == [x[0]] + x[1..] && y == [y[0]] + y[1..];
      IdBeforeTotal(x[1..], y[1..]);
    }
  }

  /** The start an event is ordered by; every event the query returns has
      one. */
  function StartOf(e: Event): int {
    e.startAt.GetOr(0)
  }

  /** Query order: the earlier start first, then the smaller id. */
  predicate Precedes(x: Event, y: Event) {
    StartOf(x) < StartOf(y) || (StartOf(x) == StartOf(y) && IdBefore(x.id, y.id))
  }

  lemma PrecedesIrreflexive(x: Event)
    ensures !Precedes(x, x)
  {
    IdBeforeIrreflexive(x.id);
  }

  lemma PrecedesTransitive(x: Event, y: Event, z: Event)
    requires Precedes(x, y) && Precedes(y, z)
    ensures Precedes(x, z)
  {
    if StartOf(x) == StartOf(y) == StartOf(z) {
      IdBeforeTransitive(x.id, y.id, z.id);
    }
  }

  lemma PrecedesAsymmetric(x: Event, y: Event)
    requires Precedes(x, y)
    ensures !Precedes(y, x)
  {
    if Precedes(y, x) {
      PrecedesTransitive(x, y, x);
      PrecedesIrreflexive(x);
    }
  }

  /** An event ordered before `y` is ordered before anything `y` is not
      ordered after. */
  lemma PrecedesThrough(x: Event, y: Event, z: Event)
    requires Precedes(x, y) && !Precedes(z, y)
    ensures Precedes(x, z)
  {
    if StartOf(x) == StartOf(y) == StartOf(z) && z.id != y.id {
      IdBeforeTotal(z.id, y.id);
      IdBeforeTransitive(x.id, y.id, z.id);
    }
  }

  /** No event of `s` is ordered before the one ahead of it. */
  predicate InQueryOrder(s: seq<Event>)
    decreases |s|
  {
    |s| == 0 || ((forall z | z in s[1..] :: !Precedes(z, s[0])) && InQueryOrder(s[1..]))
  }

  /** Places `e` ahead of the first event it is ordered before. */
  function Insert(e: Event, s: seq<Event>): (r: seq<Event>)
    ensures |r| == |s| + 1
    decreases |s|
  {
    if |s| == 0 || Precedes(e, s[0]) then [e] + s else [s[0]] + Insert(e, s[1..])
  }

  /** Sorts events into query order. */
  function Arrange(events: seq<Event>): (r: seq<Event>)
    ensures |r| == |events|
    decreases |events|
  {
    if |events| == 0 then [] else Insert(events[0], Arrange(events[1..]))
  }

  lemma {:induction false} InsertMultiset(e: Event, s: seq<Event>)
    ensures multiset(Insert(e, s)) == multiset(s) + multiset{e}
    decreases |s|
  {
    if |s| > 0 && !Precedes(e, s[0]) {
      InsertMultiset(e, s[1..]);
      assert s == [s[0]] + s[1..];
    }
  }

  lemma {:induction false} ArrangeMultiset(events: seq<Event>)
    ensures multiset(Arrange(events)) == multiset(events)
    decreases |events|
  {
    if |events| > 0 {
      ArrangeMultiset(events[1..]);
      InsertMultiset(events[0], Arrange(events[1..]));
      assert events == [events[0]] + events[1..];
    }
  }

  lemma {:induction false} InsertInQueryOrder(e: Event, s: seq<Event>)
    requires InQueryOrder(s)
    ensures InQueryOrder(Insert(e, s))
    decreases |s|
  {
    if |s| > 0 {
      if Precedes(e, s[0]) {
        var r := [e] + s;
        assert r[1..] == s;
        forall z | z in s
          ensures !Precedes(z, e)
        {
          if z != s[0] {
            assert z in s[1..] by { assert s == [s[0]] + s[1..]; }
            PrecedesThrough(e, s[0], z);
          }
          PrecedesAsymmetric(e, z);
        }
      } else {
        var t := Insert(e, s[1..]);
        InsertInQueryOrder(e, s[1..]);
        InsertMultiset(e, s[1..]);
        assert ([s[0]] + t)[1..] == t;
        forall z | z in t
          ensures !Precedes(z, s[0])
        {
          assert z in multiset(t);
        }
      }
    }
  }

  /** The query result is in query order. */
  lemma {:induction false} ArrangeInQueryOrder(events: seq<Event>)
    ensures InQueryOrder(Arrange(events))
    decreases |events|
  {
    if |events| > 0 {
      ArrangeInQueryOrder(events[1..]);
      InsertInQueryOrder(events[0], Arrange(events[1..]));
    }
  }

  /** `startAt >= now`: the matching events in query order. */
  function UpcomingEvents(now: int, events: seq<Event>): (r: seq<Event>)
    ensures |r| <= |events|
  {
    Arrange(Matching(now, events))
  }

  /** The query returns exactly the events that have a start not before
      `now`. */
  lemma UpcomingEventsMembers(now: int, events: seq<Event>, e: Event)
    ensures e in UpcomingEvents(now, events) <==> e in events && Upcoming(now, e)
  {
    ArrangeMultiset(Matching(now, events));
    MatchingMembers(now, events, e);
    assert e in UpcomingEvents(now, events) <==> e in multiset(Matching(now, events));
  }

  /** The query result holds every matching event as often as the collection
      does, ascending by start and then by id. */
  lemma UpcomingEventsInQueryOrder(now: int, events: seq<Event>)
    ensures multiset(UpcomingEvents(now, events)) == multiset(Matching(now, events))
    ensures InQueryOrder(UpcomingEvents(now, events))
    ensures forall i, j | 0 <= i < j < |UpcomingEvents(now, events)| ::
      StartOf(UpcomingEvents(now, events)[i]) <= StartOf(UpcomingEvents(now, events)[j])
  {
    var r := UpcomingEvents(now, events);
    ArrangeMultiset(Matching(now, events));
    ArrangeInQueryOrder(Matching(now, events));
    forall i, j | 0 <= i < j < |r|
      ensures StartOf(r[i]) <= StartOf(r[j])
    {
      InQueryOrderPairs(r, i, j);
    }
  }

  /** A later event of a list in query order is never ordered before an
      earlier one. */
  lemma {:induction false} InQueryOrderPairs(s: seq<Event>, i: nat, j: nat)
    requires InQueryOrder(s) && i < j < |s|
    ensures !Precedes(s[j], s[i])
    decreases i
  {
    if i == 0 {
      assert s[j] == s[1..][j - 1];
    } else {
      assert s[i] == s[1..][i - 1] && s[j] == s[1..][j - 1];
      InQueryOrderPairs(s[1..], i - 1, j - 1);
    }
  }

  /** `s` without any occurrence of `e`. */
  function Remove(e: Event, s: seq<Event>): (r: seq<Event>)
    ensures |r| <= |s|
    decreases |s|
  {
    if |s| == 0 then [] else (if s[0] == e then [] else [s[0]]) + Remove(e, s[1..])
  }

  lemma {:induction false} RemoveMembers(e: Event, s: seq<Event>, z: Event)
    ensures z in Remove(e, s) <==> z in s && z != e
    decreases |s|
  {
    if |s| > 0 {
      RemoveMembers(e, s[1..], z);
      assert z in s <==> z == s[0] || z in s[1..];
    }
  }

  lemma {:induction false} RemoveAppend(e: Event, a: seq<Event>, b: seq<Event>)
    ensures Remove(e, a + b) == Remove(e, a) + Remove(e, b)
    decreases |a|
  {
    if |a| > 0 {
      assert (a + b)[1..] == a[1..] + b;
      RemoveAppend(e, a[1..], b);
    } else {
      assert a + b == b;
    }
  }

  lemma {:induction false} RemoveInserted(e: Event, s: seq<Event>)
    ensures Remove(e, Insert(e, s)) == Remove(e, s)
    decreases |s|
  {
    if |s| > 0 && !Precedes(e, s[0]) {
      RemoveInserted(e, s[1..]);
      assert ([s[0]] + Insert(e, s[1..]))[1..] == Insert(e, s[1..]);
    } else {
      assert ([e] + s)[1..] == s;
    }
  }

  /** Removing one event from a list in query order and then inserting
      another gives what inserting first and removing after gives. */
  lemma {:induction false} RemoveInsertCommute(e: Event, x: Event, s: seq<Event>)
    requires x != e && InQueryOrder(s)
    ensures Remove(e, Insert(x, s)) == Insert(x, Remove(e, s))
    decreases |s|
  {
    if |s| == 0 {
      assert Remove(e, [x]) == [x] + Remove(e, []);
    } else if Precedes(x, s[0]) {
      assert ([x] + s)[1..] == s;
      if s[0] == e {
        var t := Remove(e, s[1..]);
        if |t| > 0 {
          RemoveMembers(e, s[1..], t[0]);
          PrecedesThrough(x, s[0], t[0]);
        }
      } else {
        assert ([s[0]] + Remove(e, s[1..]))[0] == s[0];
      }
    } else {
      var t, r := Insert(x, s[1..]), Remove(e, s[1..]);
      assert Insert(x, s) == [s[0]] + t;
      assert ([s[0]] + t)[1..] == t;
      RemoveInsertCommute(e, x, s[1..]);
      if s[0] == e {
        assert Remove(e, [s[0]] + t) == Remove(e, t);
        assert Remove(e, s) == r;
      } else {
        assert Remove(e, [s[0]] + t) == [s[0]] + Remove(e, t);
        assert Remove(e, s) == [s[0]] + r;
        assert ([s[0]] + r)[1..] == r;
        assert Insert(x, [s[0]] + r) == [s[0]] + Insert(x, r);
      }
    }
  }

  /** Removing an event commutes with sorting into query order. */
  lemma {:induction false} RemoveArrange(e: Event, events: seq<Event>)
    ensures Remove(e, Arrange(events)) == Arrange(Remove(e, events))
    decreases |events|
  {
    if |events| > 0 {
      var x, rest := events[0], events[1..];
      RemoveArrange(e, rest);
      assert Arrange(events) == Insert(x, Arrange(rest));
      if x == e {
        RemoveInserted(e, Arrange(rest));
        assert Remove(e, events) == Remove(e, rest);
      } else {
        ArrangeInQueryOrder(rest);
        RemoveInsertCommute(e, x, Arrange(rest));
        assert Remove(e, events) == [x] + Remove(e, rest);
        assert ([x] + Remove(e, rest))[1..] == Remove(e, rest);
      }
    }
  }

  /** The query result without `e` is the query result of the collection
      without this occurrence of `e`, up to other copies of `e`. */
  lemma RemoveSkipped(now: int, e: Event, a: seq<Event>, b: seq<Event>)
    ensures Remove(e, UpcomingEvents(now, a + [e] + b)) == Remove(e, UpcomingEvents(now, a + b))
  {
    var ma, me, mb := Matching(now, a), Matching(now, [e]), Matching(now, b);
    assert Matching(now, a + [e] + b) == ma + me + mb by {
      MatchingAppend(now, a + [e], b);
      MatchingAppend(now, a, [e]);
    }
    assert Matching(now, a + b) == ma + mb by {
      MatchingAppend(now, a, b);
    }
    assert Remove(e, ma + me + mb) == Remove(e, ma + mb) by {
      assert Remove(e, me) == [] by {
        assert me == (if Upcoming(now, e) then [e] else []) + Matching(now, []);
      }
      RemoveAppend(e, ma + me, mb);
      RemoveAppend(e, ma, me);
      RemoveAppend(e, ma, mb);
    }
    RemoveArrangeAgree(e, ma + me + mb, ma + mb);
  }

  /** Two collections that agree once `e` is removed arrange into results
      that agree once `e` is removed. */
  lemma {:induction false} RemoveArrangeAgree(e: Event, s: seq<Event>, t: seq<Event>)
    requires Remove(e, s) == Remove(e, t)
    ensures Remove(e, Arrange(s)) == Remove(e, Arrange(t))
  {
    RemoveArrange(e, s);
    RemoveArrange(e, t);
  }
}

=== FILE: meeting_message.dfy ===
/** The prompt the meeting-message handler sends to the text generator, and
    the handler's decisions around it: who may call it, which documents must
    exist, which key must be configured and what content is stored when the
    generator returns nothing. The store and the generator are parameters. */
module MeetingMessage {
  import opened Wrappers
  import opened Text
  import opened Callable
  import opened DocumentPath

  /** The fields of a calendar event document the prompt reads. The start is
      its ISO 8601 rendering, when the field is set. */
  datatype MeetingEvent = MeetingEvent(title: Option<string>, startAtIso: Option<string>, description: Option<string>)

  /** The fields of an AI rule-set document the prompt reads. */
  datatype RuleSet = RuleSet(
    name: Option<string>,
    category: Option<string>,
    greetingStyle: Option<string>,
    tone: Option<string>,
    emojiPolicy: Option<string>,
    lengthTarget: Option<string>,
    fixedPhrases: Option<seq<string>>,
    bannedWords: Option<seq<string>>,
    customInstructions: Option<string>)

  /** The first line of the prompt. */
  const Header := "Aşağıdaki bilgilere göre " + "Türkçe bir mesaj üret:"
  const EventHeading := "## Etkinlik Bilgileri"
  const TitleLabel := "- Başlık: "
  const DateLabel := "- Tarih: "
  const DescriptionLabel := "- Açıklama: "
  const RuleSetLabel := "## Kural Seti: "
  const CategoryLabel := "- Kategori: "
  const GreetingLabel := "- Hitap şekli: "
  const ToneLabel := "- Üslup: "
  const EmojiLabel := "- Emoji politikası: "
  const LengthLabel := "- Hedef mesaj uzunluğu: "
  const FixedLabel := "- Sabit cümleler (mesaja dahil et): "
  const BannedLabel := "- Yasak kelimeler (KULLANMA): "
  const CustomLabel := "- Ek talimatlar: "
  const NoteLabel := "## Kullanıcı notu: "
  /** The last line of the prompt. */
  const Closing := "Mesajı doğrudan yaz, " + "açıklama ekleme. Dil: Türkçe."

  const NoDate := "Belirtilmemiş"
  const NoDescription := "Yok"
  const DefaultGreeting := "Genel"

  /** `list?.length > 0` for an optional list. */
  predicate HasItems(o: Option<seq<string>>) {
    o.Some? && |o.value| > 0
  }

  /** The length target the prompt asks for: `messageType || lengthTarget`. */
  function LengthTarget(rs: RuleSet, messageType: Option<string>): string {
    if Truthy(messageType) then messageType.value else Show(rs.lengthTarget)
  }

  /** The thirteen lines every prompt starts with. */
  function BaseLines(e: MeetingEvent, rs: RuleSet, messageType: Option<string>): (lines: seq<string>)
    ensures |lines| == 13
  {
    [ Header,
      "",
      EventHeading,
      TitleLabel + Show(e.title),
      DateLabel + OrElse(e.startAtIso, NoDate),
      DescriptionLabel + OrElse(e.description, NoDescription),
      "",
      RuleSetLabel + Show(rs.name),
      CategoryLabel + Show(rs.category),
      GreetingLabel + OrElse(rs.greetingStyle, DefaultGreeting),
      ToneLabel + Show(rs.tone),
      EmojiLabel + Show(rs.emojiPolicy),
      LengthLabel + LengthTarget(rs, messageType) ]
  }

  /** The fixed-phrases line, present when there are fixed phrases. */
  function FixedPart(rs: RuleSet): seq<string> {
    if HasItems(rs.fixedPhrases) then [FixedLabel + Join(rs.fixedPhrases.value, "; ")] else []
  }

  /** The banned-words line, present when there are banned words. */
  function BannedPart(rs: RuleSet): seq<string> {
    if HasItems(rs.bannedWords) then [BannedLabel + Join(rs.bannedWords.value, ", ")] else []
  }

  /** The custom-instructions line, present when they are truthy. */
  function CustomPart(rs: RuleSet): seq<string> {
    if Truthy(rs.customInstructions) then [CustomLabel + rs.customInstructions.value] else []
  }

  /** A blank line and the user-note line, present when the note is truthy. */
  function NotePart(additionalNote: Option<string>): seq<string> {
    if Truthy(additionalNote) then ["", NoteLabel + additionalNote.value] else []
  }

  /** The conditional lines, in the order they are pushed. */
  function OptionalLines(rs: RuleSet, additionalNote: Option<string>): seq<string> {
    FixedPart(rs) + BannedPart(rs) + CustomPart(rs) + NotePart(additionalNote)
  }

  /** 1 when `b` holds, 0 otherwise. */
  function Flag(b: bool): nat {
    if b then 1 else 0
  }

  /** The lines of the prompt, before they are joined: the thirteen leading
      lines, then the conditional lines, then a blank line and the closing
      instruction. */
  function PromptLines(e: MeetingEvent, rs: RuleSet, additionalNote: Option<string>, messageType: Option<string>)
    : (lines: seq<string>)
    ensures |lines| == 15 + |OptionalLines(rs, additionalNote)|
    ensures lines[..13] == BaseLines(e, rs, messageType)
    ensures lines[|lines| - 2] == "" && lines[|lines| - 1] == Closing
  {
    var base := BaseLines(e, rs, messageType);
    var lines := base + OptionalLines(rs, additionalNote) + ["", Closing];
    assert lines[..13] == base;
    lines
  }

  /** The conditional lines follow the leading lines in the order they are
      pushed: fixed phrases, banned words, custom instructions, and then the
      user note straight after its own blank line, just before the closing
      pair. */
  lemma ConditionalLinesInPushOrder(e: MeetingEvent, rs: RuleSet, additionalNote: Option<string>, messageType: Option<string>)
    ensures var lines := PromptLines(e, rs, additionalNote, messageType);
      && (HasItems(rs.fixedPhrases) ==> lines[13] == FixedLabel + Join(rs.fixedPhrases.value, "; "))
      && (HasItems(rs.bannedWords) ==>
            lines[13 + Flag(HasItems(rs.fixedPhrases))] == BannedLabel + Join(rs.bannedWords.value, ", "))
      && (Truthy(rs.customInstructions) ==>
            lines[13 + Flag(HasItems(rs.fixedPhrases)) + Flag(HasItems(rs.bannedWords))]
            == CustomLabel + rs.customInstructions.value)
      && (Truthy(additionalNote) ==>
            lines[|lines| - 4] == "" && lines[|lines| - 3] == NoteLabel + additionalNote.value)
  {
    FixedLineAt(e, rs, additionalNote, messageType);
    BannedLineAt(e, rs, additionalNote, messageType);
    CustomLineAt(e, rs, additionalNote, messageType);
    NoteLinesAt(e, rs, additionalNote, messageType);
  }

  /** The prompt lines are the leading lines, the four conditional parts and
      the closing pair, in this order. */
  lemma PromptParts(e: MeetingEvent, rs: RuleSet, additionalNote: Option<string>, messageType: Option<string>)
    ensures PromptLines(e, rs, additionalNote, messageType)
         == BaseLines(e, rs, messageType) + FixedPart(rs) + BannedPart(rs) + CustomPart(rs)
          + NotePart(additionalNote) + ["", Closing]
  {
  }

  lemma FixedLineAt(e: MeetingEvent, rs: RuleSet, additionalNote: Option<string>, messageType: Option<string>)
    ensures HasItems(rs.fixedPhrases) ==>
      PromptLines(e, rs, additionalNote, messageType)[13] == FixedLabel + Join(rs.fixedPhrases.value, "; ")
  {
    PromptParts(e, rs, additionalNote, messageType);
    PartsAt(PromptLines(e, rs, additionalNote, messageType), BaseLines(e, rs, messageType),
            FixedPart(rs), BannedPart(rs), CustomPart(rs), NotePart(additionalNote), ["", Closing]);
  }

  lemma BannedLineAt(e: MeetingEvent, rs: RuleSet, additionalNote: Option<string>, messageType: Option<string>)
    ensures HasItems(rs.bannedWords) ==>
      var lines := PromptLines(e, rs, additionalNote, messageType);
      lines[13 + Flag(HasItems(rs.fixedPhrases))] == BannedLabel + Join(rs.bannedWords.value, ", ")
  {
    PromptParts(e, rs, additionalNote, messageType);
    PartsAt(PromptLines(e, rs, additionalNote, messageType), BaseLines(e, rs, messageType),
            FixedPart(rs), BannedPart(rs), CustomPart(rs), NotePart(additionalNote), ["", Closing]);
  }

  lemma CustomLineAt(e: MeetingEvent, rs: RuleSet, additionalNote: Option<string>, messageType: Option<string>)
    ensures Truthy(rs.customInstructions) ==>
      var lines := PromptLines(e, rs, additionalNote, messageType);
      lines[13 + Flag(HasItems(rs.fixedPhrases)) + Flag(HasItems(rs.bannedWords))]
      == CustomLabel + rs.customInstructions.value
  {
    PromptParts(e, rs, additionalNote, messageType);
    PartsAt(PromptLines(e, rs, additionalNote, messageType), BaseLines(e, rs, messageType),
            FixedPart(rs), BannedPart(rs), CustomPart(rs), NotePart(additionalNote), ["", Closing]);
  }

  lemma NoteLinesAt(e: MeetingEvent, rs: RuleSet, additionalNote: Option<string>, messageType: Option<string>)
    ensures Truthy(additionalNote) ==>
      var lines := PromptLines(e, rs, additionalNote, messageType);
      lines[|lines| - 4] == "" && lines[|lines| - 3] == NoteLabel + additionalNote.value
  {
    PromptParts(e, rs, additionalNote, messageType);
    PartsAt(PromptLines(e, rs, additionalNote, messageType), BaseLines(e, rs, messageType),
            FixedPart(rs), BannedPart(rs), CustomPart(rs), NotePart(additionalNote), ["", Closing]);
  }

  /** Where the first element of each part of a five-part concatenation
      lands, and where a two-element fourth part lands when a two-element
      last part follows it. */
  lemma PartsAt<T>(s: seq<T>, x: seq<T>, f: seq<T>, b: seq<T>, c: seq<T>, n: seq<T>, y: seq<T>)
    requires s == x + f + b + c + n + y
    ensures |f| > 0 ==> s[|x|] == f[0]
    ensures |b| > 0 ==> s[|x| + |f|] == b[0]
    ensures |c| > 0 ==> s[|x| + |f| + |b|] == c[0]
    ensures |n| == 2 && |y| == 2 ==> s[|s| - 4] == n[0] && s[|s| - 3] == n[1]
  {
    if |f| > 0 {
      assert s[|x|] == (x + f)[|x|];
    }
    if |b| > 0 {
      assert s[|x| + |f|] == (x + f + b)[|x| + |f|];
    }
    if |c| > 0 {
      assert s[|x| + |f| + |b|] == (x + f + b + c)[|x| + |f| + |b|];
    }
  }

  /** At most five conditional lines: one each for fixed phrases, banned
      words and custom instructions, two for the user note. */
  lemma OptionalLinesCount(rs: RuleSet, additionalNote: Option<string>)
    ensures |OptionalLines(rs, additionalNote)|
         == (if HasItems(rs.fixedPhrases) then 1 else 0) + (if HasItems(rs.bannedWords) then 1 else 0)
          + (if Truthy(rs.customInstructions) then 1 else 0) + (if Truthy(additionalNote) then 2 else 0)
  {
  }

  /** The prompt opens with the header and the event heading, and a missing
      or empty date, description or greeting style falls back to
      "Belirtilmemiş", "Yok" and "Genel". */
  lemma MissingFieldsFallBack(e: MeetingEvent, rs: RuleSet, additionalNote: Option<string>, messageType: Option<string>)
    ensures var lines := PromptLines(e, rs, additionalNote, messageType);
      && lines[0] == Header && lines[2] == "## Etkinlik Bilgileri"
      && (!Truthy(e.startAtIso) ==> lines[4] == "- Tarih: Belirtilmemiş")
      && (!Truthy(e.description) ==> lines[5] == "- Açıklama: Yok")
      && (!Truthy(rs.greetingStyle) ==> lines[9] == "- Hitap şekli: Genel")
  {
    var lines := PromptLines(e, rs, additionalNote, messageType);
    assert lines[..13][0] == lines[0] && lines[..13][2] == lines[2] && lines[..13][4] == lines[4];
    assert lines[..13][5] == lines[5] && lines[..13][9] == lines[9];
  }

  /** `buildPrompt`: the prompt lines joined by line breaks. */
  function BuildPrompt(e: MeetingEvent, rs: RuleSet, additionalNote: Option<string>, messageType: Option<string>)
    : (prompt: string)
  {
    Join(PromptLines(e, rs, additionalNote, messageType), "\n")
  }

  /** The prompt always opens with the fixed header line and always closes
      with a blank line and the fixed closing instruction. */
  lemma PromptFrame(e: MeetingEvent, rs: RuleSet, additionalNote: Option<string>, messageType: Option<string>)
    ensures StartsWith(BuildPrompt(e, rs, additionalNote, messageType), Header + "\n")
    ensures EndsWith(BuildPrompt(e, rs, additionalNote, messageType), "\n\n" + Closing)
  {
    var lines := PromptLines(e, rs, additionalNote, messageType);
    var n := |lines|;
    assert lines[0] == Header by {
      assert lines[..13][0] == lines[0];
    }
    JoinFrame(lines, "\n");
    assert "\n" + lines[n - 2] + "\n" + lines[n - 1] == "\n\n" + Closing by {
      assert lines[n - 2] == "" && lines[n - 1] == Closing;
      assert "\n" + "" + "\n" == "\n\n";
    }
  }

  /** The labels of the conditional lines. */
  predicate Unlabelled(s: string) {
    && !StartsWith(s, FixedLabel)
    && !StartsWith(s, BannedLabel)
    && !StartsWith(s, CustomLabel)
    && !StartsWith(s, NoteLabel)
  }

  /** A line that starts with `p` carries none of the conditional labels
      when `p` differs from each of them at the given position. */
  lemma UnlabelledBy(s: string, p: string, kf: nat, kb: nat, kc: nat, kn: nat)
    requires StartsWith(s, p)
    requires kf < |p| && kf < |FixedLabel| && p[kf] != FixedLabel[kf]
    requires kb < |p| && kb < |BannedLabel| && p[kb] != BannedLabel[kb]
    requires kc < |p| && kc < |CustomLabel| && p[kc] != CustomLabel[kc]
    requires kn < |p| && kn < |NoteLabel| && p[kn] != NoteLabel[kn]
    ensures Unlabelled(s)
  {
    DistinctPrefixes(s, p, FixedLabel, kf);
    DistinctPrefixes(s, p, BannedLabel, kb);
    DistinctPrefixes(s, p, CustomLabel, kc);
    DistinctPrefixes(s, p, NoteLabel, kn);
  }

  /** A line made of a label and a value carries no conditional label when
      the label differs from each of them at the given position. */
  lemma LabelledLineUnlabelled(tag: string, value: string, kf: nat, kb: nat, kc: nat, kn: nat)
    requires kf < |tag| && kf < |FixedLabel| && tag[kf] != FixedLabel[kf]
    requires kb < |tag| && kb < |BannedLabel| && tag[kb] != BannedLabel[kb]
    requires kc < |tag| && kc < |CustomLabel| && tag[kc] != CustomLabel[kc]
    requires kn < |tag| && kn < |NoteLabel| && tag[kn] != NoteLabel[kn]
    ensures Unlabelled(tag + value)
  {
    PrefixOfConcat(tag, value);
    UnlabelledBy(tag + value, tag, kf, kb, kc, kn);
  }

  /** The fixed lines carry no conditional label. */
  lemma FixedLinesUnlabelled()
    ensures Unlabelled(Header) && Unlabelled("") && Unlabelled(EventHeading) && Unlabelled(Closing)
  {
    LabelledLineUnlabelled("Aşağıdaki bilgilere göre ", "Türkçe bir mesaj üret:", 0, 0, 0, 0);
    LabelledLineUnlabelled("Mesajı doğrudan yaz, ", "açıklama ekleme. Dil: Türkçe.", 0, 0, 0, 0);
    UnlabelledBy(EventHeading, EventHeading, 0, 0, 0, 3);
  }

  /** None of the thirteen leading lines carries a conditional label. */
  lemma BaseLinesUnlabelled(e: MeetingEvent, rs: RuleSet, messageType: Option<string>)
    ensures forall i | 0 <= i < 13 :: Unlabelled(BaseLines(e, rs, messageType)[i])
  {
    var lines := BaseLines(e, rs, messageType);
    forall i | 0 <= i < 13
      ensures Unlabelled(lines[i])
    {
      if i < 7 {
        FixedLinesUnlabelled();
        EventLinesUnlabelled(e);
      } else {
        RuleSetLinesUnlabelled(rs, messageType);
      }
    }
  }

  lemma EventLinesUnlabelled(e: MeetingEvent)
    ensures Unlabelled(TitleLabel + Show(e.title))
    ensures Unlabelled(DateLabel + OrElse(e.startAtIso, NoDate))
    ensures Unlabelled(DescriptionLabel + OrElse(e.description, NoDescription))
  {
    LabelledLineUnlabelled(TitleLabel, Show(e.title), 2, 2, 2, 0);
    LabelledLineUnlabelled(DateLabel, OrElse(e.startAtIso, NoDate), 2, 2, 2, 0);
    LabelledLineUnlabelled(DescriptionLabel, OrElse(e.description, NoDescription), 2, 2, 2, 0);
  }

  lemma RuleSetLinesUnlabelled(rs: RuleSet, messageType: Option<string>)
    ensures Unlabelled(RuleSetLabel + Show(rs.name))
    ensures Unlabelled(CategoryLabel + Show(rs.category))
    ensures Unlabelled(GreetingLabel + OrElse(rs.greetingStyle, DefaultGreeting))
    ensures Unlabelled(ToneLabel + Show(rs.tone))
    ensures Unlabelled(EmojiLabel + Show(rs.emojiPolicy))
    ensures Unlabelled(LengthLabel + LengthTarget(rs, messageType))
  {
    LabelledLineUnlabelled(RuleSetLabel, Show(rs.name), 0, 0, 0, 5);
    LabelledLineUnlabelled(CategoryLabel, Show(rs.category), 2, 2, 2, 0);
    LabelledLineUnlabelled(GreetingLabel, OrElse(rs.greetingStyle, DefaultGreeting), 2, 2, 2, 0);
    LabelledLineUnlabelled(ToneLabel, Show(rs.tone), 2, 2, 2, 0);
    LabelledLineUnlabelled(EmojiLabel, Show(rs.emojiPolicy), 2, 2, 3, 0);
    LabelledLineUnlabelled(LengthLabel, LengthTarget(rs, messageType), 2, 2, 2, 0);
  }

  /** The lines that start with `tag`, in order. */
  function LinesWith(lines: seq<string>, tag: string): (r: seq<string>)
    ensures |r| <= |lines|
    decreases |lines|
  {
    if |lines| == 0 then []
    else (if StartsWith(lines[0], tag) then [lines[0]] else []) + LinesWith(lines[1..], tag)
  }

  lemma {:induction false} LinesWithAppend(a: seq<string>, b: seq<string>, tag: string)
    ensures LinesWith(a + b, tag) == LinesWith(a, tag) + LinesWith(b, tag)
    decreases |a|
  {
    if |a| > 0 {
      assert (a + b)[1..] == a[1..] + b;
      LinesWithAppend(a[1..], b, tag);
    } else {
      assert a + b == b;
    }
  }

  lemma {:induction false} LinesWithNone(lines: seq<string>, tag: string)
    requires forall i | 0 <= i < |lines| :: !StartsWith(lines[i], tag)
    ensures LinesWith(lines, tag) == []
    decreases |lines|
  {
    if |lines| > 0 {
      LinesWithNone(lines[1..], tag);
    }
  }

  /** A line made of a conditional label and a value starts with that label
      and with none of the other three. */
  lemma ConditionalLineLabels(value: string)
    ensures var s := FixedLabel + value;
      StartsWith(s, FixedLabel) && !StartsWith(s, BannedLabel) && !StartsWith(s, CustomLabel) && !StartsWith(s, NoteLabel)
    ensures var s := BannedLabel + value;
      !StartsWith(s, FixedLabel) && StartsWith(s, BannedLabel) && !StartsWith(s, CustomLabel) && !StartsWith(s, NoteLabel)
    ensures var s := CustomLabel + value;
      !StartsWith(s, FixedLabel) && !StartsWith(s, BannedLabel) && StartsWith(s, CustomLabel) && !StartsWith(s, NoteLabel)
    ensures var s := NoteLabel + value;
      !StartsWith(s, FixedLabel) && !StartsWith(s, BannedLabel) && !StartsWith(s, CustomLabel) && StartsWith(s, NoteLabel)
  {
    PrefixOfConcat(FixedLabel, value);
    PrefixOfConcat(BannedLabel, value);
    PrefixOfConcat(CustomLabel, value);
    PrefixOfConcat(NoteLabel, value);
    DistinctPrefixes(FixedLabel + value, FixedLabel, BannedLabel, 2);
    DistinctPrefixes(FixedLabel + value, FixedLabel, CustomLabel, 2);
    DistinctPrefixes(FixedLabel + value, FixedLabel, NoteLabel, 0);
    DistinctPrefixes(BannedLabel + value, BannedLabel, FixedLabel, 2);
    DistinctPrefixes(BannedLabel + value, BannedLabel, CustomLabel, 2);
    DistinctPrefixes(BannedLabel + value, BannedLabel, NoteLabel, 0);
    DistinctPrefixes(CustomLabel + value, CustomLabel, FixedLabel, 2);
    DistinctPrefixes(CustomLabel + value, CustomLabel, BannedLabel, 2);
    DistinctPrefixes(CustomLabel + value, CustomLabel, NoteLabel, 0);
    DistinctPrefixes(NoteLabel + value, NoteLabel, FixedLabel, 0);
    DistinctPrefixes(NoteLabel + value, NoteLabel, BannedLabel, 0);
    DistinctPrefixes(NoteLabel + value, NoteLabel, CustomLabel, 0);
  }

  /** The conditional labels. */
  predicate ConditionalLabel(tag: string) {
    tag == FixedLabel || tag == BannedLabel || tag == CustomLabel || tag == NoteLabel
  }

  /** A line pushed under label `lbl` when `present` holds is selected by
      `tag` exactly when `tag` is that label. */
  lemma {:induction false} PartLinesWith(present: bool, lbl: string, value: string, tag: string)
    requires ConditionalLabel(tag) && ConditionalLabel(lbl)
    ensures LinesWith(if present then [lbl + value] else [], tag)
         == (if present && tag == lbl then [lbl + value] else [])
  {
    if present {
      ConditionalLineLabels(value);
      assert LinesWith([lbl + value], tag)
          == (if StartsWith(lbl + value, tag) then [lbl + value] else []) + LinesWith([], tag);
    }
  }

  lemma NotePartWith(additionalNote: Option<string>, tag: string)
    requires ConditionalLabel(tag)
    ensures LinesWith(NotePart(additionalNote), tag)
         == (if tag == NoteLabel && Truthy(additionalNote) then [NoteLabel + additionalNote.value] else [])
  {
    var note := additionalNote.GetOr("");
    var n := if Truthy(additionalNote) then [NoteLabel + note] else [];
    var blank: seq<string> := if Truthy(additionalNote) then [""] else [];
    assert NotePart(additionalNote) == blank + n;
    LinesWithAppend(blank, n, tag);
    FixedLinesUnlabelled();
    LinesWithNone(blank, tag);
    PartLinesWith(Truthy(additionalNote), NoteLabel, note, tag);
  }

  /** The lines carrying `tag` among the conditional lines and the closing
      pair are those of the four conditional parts. */
  lemma TailLinesWith(rs: RuleSet, additionalNote: Option<string>, tag: string)
    requires ConditionalLabel(tag)
    ensures LinesWith(OptionalLines(rs, additionalNote) + ["", Closing], tag)
         == LinesWith(FixedPart(rs), tag) + LinesWith(BannedPart(rs), tag)
          + LinesWith(CustomPart(rs), tag) + LinesWith(NotePart(additionalNote), tag)
  {
    var f, b, c, n := FixedPart(rs), BannedPart(rs), CustomPart(rs), NotePart(additionalNote);
    LinesWithAppend(f + b + c + n, ["", Closing], tag);
    LinesWithAppend(f + b + c, n, tag);
    LinesWithAppend(f + b, c, tag);
    LinesWithAppend(f, b, tag);
    FixedLinesUnlabelled();
    LinesWithNone(["", Closing], tag);
  }

  /** Each conditional part is selected by its own label only. */
  lemma ConditionalPartsWith(rs: RuleSet, additionalNote: Option<string>, tag: string)
    requires ConditionalLabel(tag)
    ensures LinesWith(FixedPart(rs), tag) == (if tag == FixedLabel then FixedPart(rs) else [])
    ensures LinesWith(BannedPart(rs), tag) == (if tag == BannedLabel then BannedPart(rs) else [])
    ensures LinesWith(CustomPart(rs), tag) == (if tag == CustomLabel then CustomPart(rs) else [])
    ensures LinesWith(NotePart(additionalNote), tag)
         == (if tag == NoteLabel && Truthy(additionalNote) then [NoteLabel + additionalNote.value] else [])
  {
    PartLinesWith(HasItems(rs.fixedPhrases), FixedLabel, Join(rs.fixedPhrases.GetOr([]), "; "), tag);
    PartLinesWith(HasItems(rs.bannedWords), BannedLabel, Join(rs.bannedWords.GetOr([]), ", "), tag);
    PartLinesWith(Truthy(rs.customInstructions), CustomLabel, rs.customInstructions.GetOr(""), tag);
    NotePartWith(additionalNote, tag);
  }

  /** The lines of a prompt carrying one conditional label. */
  lemma PromptLinesWith(e: MeetingEvent, rs: RuleSet, additionalNote: Option<string>, messageType: Option<string>, tag: string)
    requires ConditionalLabel(tag)
    ensures LinesWith(PromptLines(e, rs, additionalNote, messageType), tag)
         == (if tag == FixedLabel then FixedPart(rs) else [])
          + (if tag == BannedLabel then BannedPart(rs) else [])
          + (if tag == CustomLabel then CustomPart(rs) else [])
          + (if tag == NoteLabel && Truthy(additionalNote) then [NoteLabel + additionalNote.value] else [])
  {
    var base := BaseLines(e, rs, messageType);
    var tail := OptionalLines(rs, additionalNote) + ["", Closing];
    assert PromptLines(e, rs, additionalNote, messageType) == base + tail;
    assert LinesWith(base, tag) == [] by {
      BaseLinesUnlabelled(e, rs, messageType);
      LinesWithNone(base, tag);
    }
    LinesWithAppend(base, tail, tag);
    TailLinesWith(rs, additionalNote, tag);
    ConditionalPartsWith(rs, additionalNote, tag);
  }

  /** Each conditional line appears exactly when its condition holds, once,
      with its content: the fixed phrases joined by "; " when there are any,
      the banned words joined by ", " when there are any, the custom
      instructions when set and non-empty, and the user note when set and
      non-empty. */
  lemma ConditionalLinesAppearIff(e: MeetingEvent, rs: RuleSet, additionalNote: Option<string>, messageType: Option<string>)
    ensures var lines := PromptLines(e, rs, additionalNote, messageType);
      && LinesWith(lines, FixedLabel)
         == (if HasItems(rs.fixedPhrases) then [FixedLabel + Join(rs.fixedPhrases.value, "; ")] else [])
      && LinesWith(lines, BannedLabel)
         == (if HasItems(rs.bannedWords) then [BannedLabel + Join(rs.bannedWords.value, ", ")] else [])
      && LinesWith(lines, CustomLabel)
         == (if Truthy(rs.customInstructions) then [CustomLabel + rs.customInstructions.value] else [])
      && LinesWith(lines, NoteLabel)
         == (if Truthy(additionalNote) then [NoteLabel + additionalNote.value] else [])
  {
    var lines := PromptLines(e, rs, additionalNote, messageType);
    assert LinesWith(lines, FixedLabel) == FixedPart(rs) by {
      ConditionalLabelsDistinct();
      PromptLinesWith(e, rs, additionalNote, messageType, FixedLabel);
    }
    assert LinesWith(lines, BannedLabel) == BannedPart(rs) by {
      ConditionalLabelsDistinct();
      PromptLinesWith(e, rs, additionalNote, messageType, BannedLabel);
    }
    assert LinesWith(lines, CustomLabel) == CustomPart(rs) by {
      ConditionalLabelsDistinct();
      PromptLinesWith(e, rs, additionalNote, messageType, CustomLabel);
    }
    assert LinesWith(lines, NoteLabel) == (if Truthy(additionalNote) then [NoteLabel + additionalNote.value] else []) by {
      ConditionalLabelsDistinct();
      PromptLinesWith(e, rs, additionalNote, messageType, NoteLabel);
    }
  }

  lemma ConditionalLabelsDistinct()
    ensures FixedLabel != BannedLabel && FixedLabel != CustomLabel && FixedLabel != NoteLabel
    ensures BannedLabel != CustomLabel && BannedLabel != NoteLabel && CustomLabel != NoteLabel
  {
    assert FixedLabel[2] == 'S' && BannedLabel[2] == 'Y' && CustomLabel[2] == 'E';
    assert NoteLabel[0] == '#' && FixedLabel[0] == '-' && BannedLabel[0] == '-' && CustomLabel[0] == '-';
  }

  const NotFound := HttpsError("not-found", "Etkinlik veya kural seti bulunamadı.")
  const NoApiKey := HttpsError("failed-precondition", "OpenAI API anahtarı yapılandırılmamış.")

  /** The content stored when the generator returns nothing. */
  const NoContent := "Mesaj üretilemedi."

  /** An optional request field as it arrives: left out, sent as `null`,
      or sent with a value. */
  datatype Supplied = Omitted | Null | Given(value: string)

  /** `messageType = "orta"` in the request's destructuring: the default
      replaces a field that was left out, not one sent as `null`. */
  function MessageTypeOrDefault(m: Supplied): (r: Option<string>)
    ensures m.Omitted? ==> r == Some("orta")
    ensures r.None? <==> m.Null?
    ensures m.Given? ==> r == Some(m.value)
  {
    match m
    case Omitted => Some("orta")
    case Null => None
    case Given(s) => Some(s)
  }

  /** The caller's request. */
  datatype Request = Request(eventId: string, ruleSetId: string, additionalNote: Option<string>, messageType: Supplied)

  /** What the text generator's completion call comes back with: it throws
      (an authentication, quota or network failure), or it returns the
      content of its first choice, if any. */
  datatype Completion = Rejected | Completed(content: Option<string>)

  /** What the handler reads: the event and rule-set documents, keyed by
      user id and document id, and the two places an API key may be
      configured. */
  datatype Backend = Backend(
    events: map<(string, string), MeetingEvent>,
    ruleSets: map<(string, string), RuleSet>,
    envKey: Option<string>,
    configKey: Option<string>)

  /** The generated-message document the handler writes. */
  datatype StoredMessage = StoredMessage(
    title: string, content: string, sourceEventId: string, ruleSetId: string,
    isFavorite: bool, isArchived: bool)

  /** A successful call: the prompt sent, the content returned to the
      caller, and the document written. */
  datatype Generated = Generated(prompt: string, content: string, stored: StoredMessage)

  /** The path of the event document the request names for user `uid`. */
  function EventPath(uid: string, eventId: string): string {
    "users" + "/" + uid + "/" + "calendarEvents" + "/" + eventId
  }

  /** The path of the rule-set document the request names for user `uid`. */
  function RuleSetPath(uid: string, ruleSetId: string): string {
    "users" + "/" + uid + "/" + "aiRuleSets" + "/" + ruleSetId
  }

  /** Both paths the request builds name documents, so neither `db.doc` call
      throws. */
  predicate PathsValid(uid: string, req: Request) {
    ValidDocumentPath(EventPath(uid, req.eventId)) && ValidDocumentPath(RuleSetPath(uid, req.ruleSetId))
  }

  /** Both documents the request names exist for user `uid`. */
  predicate DocumentsExist(store: Backend, uid: string, req: Request) {
    (uid, req.eventId) in store.events && (uid, req.ruleSetId) in store.ruleSets
  }

  /** `process.env.OPENAI_API_KEY || functions.config().openai?.key`. */
  function ApiKey(store: Backend): Option<string> {
    if Truthy(store.envKey) then store.envKey else store.configKey
  }

  /** The prompt built for the request of user `uid`. */
  function RequestPrompt(store: Backend, uid: string, req: Request): string
    requires DocumentsExist(store, uid, req)
  {
    BuildPrompt(store.events[(uid, req.eventId)], store.ruleSets[(uid, req.ruleSetId)],
                req.additionalNote, MessageTypeOrDefault(req.messageType))
  }

  /** `generateMeetingMessage`: the caller's id (absent when unauthenticated),
      the request, what the store holds, and the generator's answer to a
      prompt. A document path that `db.doc` refuses, and a completion call
      that throws, are both reported to the caller by the callable wrapper
      as an internal error, and nothing is stored. */
  function GenerateMeetingMessage(auth: Option<string>, req: Request, store: Backend,
                                  complete: string -> Completion): (r: Result<Generated, HttpsError>)
    ensures auth.None? ==> r == Failure(Unauthenticated)
    ensures r == Failure(NotFound) <==>
      auth.Some? && PathsValid(auth.value, req) && !DocumentsExist(store, auth.value, req)
    ensures r == Failure(NoApiKey) <==>
      auth.Some? && PathsValid(auth.value, req) && DocumentsExist(store, auth.value, req)
      && !Truthy(ApiKey(store))
    ensures r == Failure(Internal) <==>
      auth.Some? &&
      (!PathsValid(auth.value, req)
       || (DocumentsExist(store, auth.value, req) && Truthy(ApiKey(store))
           && complete(RequestPrompt(store, auth.value, req)).Rejected?))
    ensures r.Success? <==>
      auth.Some? && PathsValid(auth.value, req) && DocumentsExist(store, auth.value, req)
      && Truthy(ApiKey(store)) && complete(RequestPrompt(store, auth.value, req)).Completed?
    ensures r.Success? ==>
      var g, answer := r.value, complete(r.value.prompt);
      && g.prompt == RequestPrompt(store, auth.value, req)
      && (Truthy(answer.content) ==> g.content == answer.content.value)
      && (!Truthy(answer.content) ==> g.content == NoContent)
      && g.stored == StoredMessage(Show(store.events[(auth.value, req.eventId)].title) + " - Mesaj",
                                   g.content, req.eventId, req.ruleSetId, false, false)
  {
    if auth.None? then Failure(Unauthenticated)
    else
      var uid := auth.value;
      if !PathsValid(uid, req) then Failure(Internal)
      else if !DocumentsExist(store, uid, req) then Failure(NotFound)
      else
        var event := store.events[(uid, req.eventId)];
        var prompt := RequestPrompt(store, uid, req);
        if !Truthy(ApiKey(store)) then Failure(NoApiKey)
        else
          match complete(prompt)
          case Rejected => Failure(Internal)
          case Completed(answer) =>
            var content := OrElse(answer, NoContent);
            Success(Generated(prompt, content,
              StoredMessage(Show(event.title) + " - Mesaj", content, req.eventId, req.ruleSetId, false, false)))
  }

  /** For a user id without slashes, the request's paths name documents
      exactly when each id has an odd number of segments, no "//", and no
      leading '/'; in particular plain ids work exactly when neither is
      empty. */
  lemma PathsValidIff(uid: string, req: Request)
    requires uid != "" && SlashFree(uid)
    ensures PathsValid(uid, req) <==>
      && |Segments(req.eventId)| % 2 == 1 && !HasDoubleSlash(req.eventId)
      && !(|req.eventId| > 0 && req.eventId[0] == '/')
      && |Segments(req.ruleSetId)| % 2 == 1 && !HasDoubleSlash(req.ruleSetId)
      && !(|req.ruleSetId| > 0 && req.ruleSetId[0] == '/')
    ensures SlashFree(req.eventId) && SlashFree(req.ruleSetId) ==>
      (PathsValid(uid, req) <==> req.eventId != "" && req.ruleSetId != "")
  {
    NestedDocumentPathValid("users", uid, "calendarEvents", req.eventId);
    NestedDocumentPathValid("users", uid, "aiRuleSets", req.ruleSetId);
    if SlashFree(req.eventId) && SlashFree(req.ruleSetId) {
      PlainIds("users", uid, "calendarEvents", req.eventId);
      PlainIds("users", uid, "aiRuleSets", req.ruleSetId);
    }
  }

  /** An empty event or rule-set id makes the handler fail with an internal
      error before any document is read, whatever the store holds. */
  lemma EmptyIdIsInternal(uid: string, req: Request, store: Backend, complete: string -> Completion)
    requires uid != "" && SlashFree(uid)
    requires req.eventId == "" || req.ruleSetId == ""
    ensures GenerateMeetingMessage(Some(uid), req, store, complete) == Failure(Internal)
  {
    if req.eventId == "" {
      PlainIds("users", uid, "calendarEvents", req.eventId);
    } else {
      PlainIds("users", uid, "aiRuleSets", req.ruleSetId);
    }
  }

  /** The handler defaults only a left-out message type to "orta", so the
      rule set's own length target reaches the prompt exactly when the caller
      sends the message type as `null` or empty. */
  lemma LengthTargetOnlyForEmptyOrNullMessageType(rs: RuleSet, requested: Supplied)
    ensures !Truthy(MessageTypeOrDefault(requested)) <==> requested == Null || requested == Given("")
    ensures var shown := LengthTarget(rs, MessageTypeOrDefault(requested));
      && (requested == Null || requested == Given("") ==> shown == Show(rs.lengthTarget))
      && (requested == Omitted ==> shown == "orta")
      && (requested.Given? && requested.value != "" ==> shown == requested.value)
  {
  }
}

=== FILE: reminder_rules.dfy ===
/** How one reminder rule of a calendar event is evaluated in a scheduler
    tick: the rule's offset before the event start, the closed five-minute
    window the fire time is compared with, the Turkish unit label and the
    notification the rule produces. Instants are integer milliseconds. */
module ReminderRules {
  import opened Wrappers
  import opened Text

  const MinuteMillis: nat := 60 * 1000
  const HourMillis: nat := 60 * 60 * 1000
  const DayMillis: nat := 24 * 60 * 60 * 1000

  /** The length of the window a tick covers, `5 * 60 * 1000`. */
  const WindowMillis: nat := 5 * 60 * 1000

  /** A reminder rule as stored on an event: a kind (read by nothing), a
      numeric value and a unit name. Nothing checks that `value >= 0` or
      that the unit is one of the known names. */
  datatype Rule = Rule(kind: string, value: int, unit: string)

  /** Milliseconds in one `unit`; 0 for a unit the switch does not name. */
  function UnitMillis(unit: string): nat {
    if unit == "minute" then MinuteMillis
    else if unit == "hour" then HourMillis
    else if unit == "day" then DayMillis
    else 0
  }

  /** The unit names the reminder switch knows. */
  predicate KnownUnit(unit: string) {
    unit == "minute" || unit == "hour" || unit == "day"
  }

  /** `calculateReminderTime`: the instant a rule is due, its offset before
      the event start. */
  function ReminderTime(start: int, rule: Rule): (t: int)
    ensures rule.unit == "minute" ==> t == start - rule.value * 60000
    ensures rule.unit == "hour" ==> t == start - rule.value * 3600000
    ensures rule.unit == "day" ==> t == start - rule.value * 86400000
    ensures !KnownUnit(rule.unit) ==> t == start
    ensures rule.value >= 0 ==> t <= start
    ensures rule.value > 0 && KnownUnit(rule.unit) ==> t < start
  {
    start - rule.value * UnitMillis(rule.unit)
  }

  /** For a known unit the rule's value is recovered from the event start and
      the reminder time, so distinct values give distinct reminder times. */
  lemma ReminderTimeDeterminesValue(start: int, rule: Rule)
    requires KnownUnit(rule.unit)
    ensures (start - ReminderTime(start, rule)) % UnitMillis(rule.unit) == 0
    ensures (start - ReminderTime(start, rule)) / UnitMillis(rule.unit) == rule.value
  {
    var d := start - ReminderTime(start, rule);
    if rule.unit == "minute" {
      assert d == rule.value * 60000;
    } else if rule.unit == "hour" {
      assert d == rule.value * 3600000;
    } else {
      assert d == rule.value * 86400000;
    }
  }

  /** A larger value of the same known unit reminds strictly earlier. */
  lemma ReminderTimeStrictlyAntitone(start: int, a: Rule, b: Rule)
    requires KnownUnit(a.unit) && a.unit == b.unit
    requires a.value < b.value
    ensures ReminderTime(start, b) < ReminderTime(start, a)
  {
    var m := UnitMillis(a.unit);
    assert b.value * m - a.value * m == (b.value - a.value) * m;
  }

  /** The window test of one tick at `now`: closed at both ends. */
  predicate InWindow(now: int, t: int) {
    now <= t <= now + WindowMillis
  }

  /** Whether a rule of an event starting at `start` is dispatched in the
      tick at `now`. */
  predicate Fires(now: int, start: int, rule: Rule) {
    InWindow(now, ReminderTime(start, rule))
  }

  /** A rule fires exactly when the event start lies in the window shifted
      later by the rule's offset: the window is a five-minute band of start
      times per rule. */
  lemma FiresIffStartInShiftedWindow(now: int, start: int, rule: Rule)
    ensures Fires(now, start, rule) <==>
      var off := rule.value * UnitMillis(rule.unit);
      now + off <= start <= now + off + 300000
  {
  }

  /** Both ends of the window are inclusive: a fire time exactly at `now` or
      exactly five minutes later fires, one millisecond outside does not. */
  lemma WindowBoundaries(now: int)
    ensures InWindow(now, now) && InWindow(now, now + 300000)
    ensures !InWindow(now, now - 1) && !InWindow(now, now + 300001)
  {
  }

  /** Two ticks exactly one window apart share exactly one instant, their
      common boundary: a fire time there is dispatched by both ticks. */
  lemma ContiguousTicksShareBoundary(now: int, t: int)
    ensures InWindow(now, t) && InWindow(now + WindowMillis, t) <==> t == now + WindowMillis
  {
  }

  /** `unitToTurkish`: the Turkish word for a known unit, any other unit
      name unchanged. */
  function UnitLabel(unit: string): (word: string)
    ensures unit == "minute" ==> word == "dakika"
    ensures unit == "hour" ==> word == "saat"
    ensures unit == "day" ==> word == "gün"
    ensures !KnownUnit(unit) ==> word == unit
  {
    match unit
    case "minute" => "dakika"
    case "hour" => "saat"
    case "day" => "gün"
    case _ => unit
  }

  /** The label switch and the offset switch agree on the units they know: a
      unit is translated exactly when it contributes a non-zero offset. */
  lemma LabelTranslatesIffTimed(unit: string)
    ensures UnitLabel(unit) != unit <==> UnitMillis(unit) > 0
  {
  }

  /** A push notification: title, body and string-valued data payload. */
  datatype Notification = Notification(title: string, body: string, data: map<string, string>)

  const TitlePrefix := "Yaklaşan etkinlik: "
  const BodySuffix := " sonra başlayacak"
  const EventKind := "calendar_event"

  /** The notification a fired rule of event `eventId` with title `title`
      produces. */
  function ReminderNotification(eventId: string, title: Option<string>, rule: Rule): (n: Notification)
    ensures StartsWith(n.title, TitlePrefix)
    ensures n.title[|TitlePrefix|..] == Show(title)
    ensures EndsWith(n.body, BodySuffix)
    ensures n.data.Keys == {"eventId", "type"}
    ensures n.data["eventId"] == eventId && n.data["type"] == EventKind
  {
    Notification(
      TitlePrefix + Show(title),
      IntToDecimal(rule.value) + " " + UnitLabel(rule.unit) + BodySuffix,
      map["eventId" := eventId, "type" := EventKind])
  }

  /** The body names the rule's value as its first word, so the value reads
      back from the body, followed by the unit's label. */
  lemma {:induction false} BodyNamesValueAndUnit(eventId: string, title: Option<string>, rule: Rule)
    ensures var body := ReminderNotification(eventId, title, rule).body;
      && ParseInt(FirstWord(body)) == Some(rule.value)
      && body[|FirstWord(body)| + 1..] == UnitLabel(rule.unit) + BodySuffix
  {
    var w := IntToDecimal(rule.value);
    var body := ReminderNotification(eventId, title, rule).body;
    assert body == w + " " + (UnitLabel(rule.unit) + BodySuffix);
    FirstWordOf(w, UnitLabel(rule.unit) + BodySuffix);
    IntRoundTrip(rule.value);
  }
}

=== FILE: reminder_tick.dfy ===
/** One run of the reminder scheduler at instant `now`: the users, their
    upcoming events and each event's rules are walked in order, every rule
    whose reminder time falls in the window yields one notification, and each
    notification is handed to the push channel when its user has a device
    token. The store's documents are inputs; the push channel's verdict is a
    parameter. */
module ReminderTick {
  import opened Wrappers
  import opened Text
  import opened ReminderRules
  import opened EventQuery

  /** A user document: its id, `profile.fcmToken` if set, and the user's
      calendar events, in any order. */
  datatype User = User(uid: string, fcmToken: Option<string>, events: seq<Event>)

  /** A notification addressed to the user `uid`. */
  datatype Dispatch = Dispatch(uid: string, notification: Notification)

  /** What handing one notification to the dispatcher led to. Every outcome
      returns normally: a missing token is a silent no-op and a rejected send
      is caught. */
  datatype SendOutcome =
    | NoToken(uid: string, notification: Notification)
    | Delivered(uid: string, token: string, notification: Notification)
    | SendFailed(uid: string, token: string, notification: Notification)
  {
    predicate Attempted() {
      !NoToken?
    }
  }

  /** `event.reminderRules || []`. */
  function RulesOf(e: Event): seq<Rule> {
    e.reminderRules.GetOr([])
  }

  /** The notifications of the rules of event `e` (starting at `start`)
      that fire at `now`, in rule order. */
  function RuleNotifications(now: int, start: int, e: Event, rules: seq<Rule>): (ns: seq<Notification>)
    ensures |ns| <= |rules|
    decreases |rules|
  {
    if |rules| == 0 then []
    else
      var rest := RuleNotifications(now, start, e, rules[1..]);
      if Fires(now, start, rules[0]) then [ReminderNotification(e.id, e.title, rules[0])] + rest
      else rest
  }

  /** A notification comes out of a run of rules exactly when some rule of
      the run fires and builds it. */
  lemma {:induction false} RuleNotificationsMembers(now: int, start: int, e: Event, rules: seq<Rule>, n: Notification)
    ensures n in RuleNotifications(now, start, e, rules) <==>
      exists r :: r in rules && Fires(now, start, r) && n == ReminderNotification(e.id, e.title, r)
    decreases |rules|
  {
    if |rules| > 0 {
      RuleNotificationsMembers(now, start, e, rules[1..], n);
      assert forall r :: r in rules <==> r == rules[0] || r in rules[1..];
    }
  }

  /** Rule order is kept: the notifications of two runs of rules are those of
      the first run followed by those of the second. */
  lemma {:induction false} RuleNotificationsAppend(now: int, start: int, e: Event, a: seq<Rule>, b: seq<Rule>)
    ensures RuleNotifications(now, start, e, a + b)
         == RuleNotifications(now, start, e, a) + RuleNotifications(now, start, e, b)
    decreases |a|
  {
    if |a| > 0 {
      assert (a + b)[1..] == a[1..] + b;
      RuleNotificationsAppend(now, start, e, a[1..], b);
    } else {
      assert a + b == b;
    }
  }

  /** The positions of the rules that fire. */
  function FiringRules(now: int, start: int, rules: seq<Rule>): set<nat> {
    set k: nat | k < |rules| && Fires(now, start, rules[k])
  }

  /** A rule appended at position `|p|` adds its position exactly when it
      fires. */
  lemma FiringRulesSnoc(now: int, start: int, p: seq<Rule>, r: Rule)
    ensures FiringRules(now, start, p + [r])
         == FiringRules(now, start, p) + (if Fires(now, start, r) then {|p|} else {})
  {
    var q := p + [r];
    forall k: nat
      ensures k in FiringRules(now, start, q) <==>
        k in FiringRules(now, start, p) + (if Fires(now, start, r) then {|p|} else {})
    {
      if k < |p| {
        assert q[k] == p[k];
      }
    }
  }

  /** One notification per firing rule: a run of rules yields as many
      notifications as it has rules whose reminder time is in the window. */
  lemma {:induction false} RuleNotificationsOnePerFiringRule(now: int, start: int, e: Event, rules: seq<Rule>)
    ensures |RuleNotifications(now, start, e, rules)| == |FiringRules(now, start, rules)|
    decreases |rules|
  {
    if |rules| == 0 {
      assert FiringRules(now, start, rules) == {};
    } else {
      var n := |rules| - 1;
      var p, r := rules[..n], rules[n];
      var fp := FiringRules(now, start, p);
      RuleNotificationsOnePerFiringRule(now, start, e, p);
      assert rules == p + [r];
      RuleNotificationsAppend(now, start, e, p, [r]);
      assert |RuleNotifications(now, start, e, [r])| == if Fires(now, start, r) then 1 else 0 by {
        assert [r][1..] == [];
      }
      FiringRulesSnoc(now, start, p, r);
      assert n !in fp;
    }
  }

  /** The notifications one event yields: none without a start, none without
      rules, otherwise one per firing rule. */
  function EventNotifications(now: int, e: Event): (ns: seq<Notification>)
    ensures e.startAt.None? || RulesOf(e) == [] ==> ns == []
    ensures |ns| <= |RulesOf(e)|
    ensures e.startAt.Some? ==> |ns| == |FiringRules(now, e.startAt.value, RulesOf(e))|
  {
    match e.startAt
    case None => []
    case Some(start) =>
      RuleNotificationsOnePerFiringRule(now, start, e, RulesOf(e));
      RuleNotifications(now, start, e, RulesOf(e))
  }

  /** Addresses each notification to `uid`, keeping their order. */
  function Address(uid: string, ns: seq<Notification>): (ds: seq<Dispatch>)
    ensures |ds| == |ns|
    ensures forall i | 0 <= i < |ns| :: ds[i] == Dispatch(uid, ns[i])
  {
    seq(|ns|, i requires 0 <= i < |ns| => Dispatch(uid, ns[i]))
  }

  lemma AddressMembers(uid: string, ns: seq<Notification>, d: Dispatch)
    ensures d in Address(uid, ns) <==> d.uid == uid && d.notification in ns
  {
    if d.uid == uid && d.notification in ns {
      var i :| 0 <= i < |ns| && ns[i] == d.notification;
      assert Address(uid, ns)[i] == d;
    }
  }

  lemma AddressAppend(uid: string, a: seq<Notification>, b: seq<Notification>)
    ensures Address(uid, a + b) == Address(uid, a) + Address(uid, b)
  {
  }

  /** The dispatches of user `uid` for the events `events`, in event order. */
  function EventDispatches(now: int, uid: string, events: seq<Event>): (ds: seq<Dispatch>)
    decreases |events|
  {
    if |events| == 0 then []
    else Address(uid, EventNotifications(now, events[0])) + EventDispatches(now, uid, events[1..])
  }

  /** A dispatch comes out of a run of events exactly when it is addressed to
      the user and one of the events yields its notification. */
  lemma {:induction false} EventDispatchesMembers(now: int, uid: string, events: seq<Event>, d: Dispatch)
    ensures d in EventDispatches(now, uid, events) <==>
      d.uid == uid && exists e :: e in events && d.notification in EventNotifications(now, e)
    decreases |events|
  {
    if |events| > 0 {
      EventDispatchesMembers(now, uid, events[1..], d);
      AddressMembers(uid, EventNotifications(now, events[0]), d);
      assert forall e :: e in events <==> e == events[0] || e in events[1..];
    }
  }

  lemma EventDispatchesSingle(now: int, uid: string, e: Event)
    ensures EventDispatches(now, uid, [e]) == Address(uid, EventNotifications(now, e))
  {
    assert EventDispatches(now, uid, [e]) == Address(uid, EventNotifications(now, e)) + EventDispatches(now, uid, []);
  }

  /** Event order is kept. */
  lemma {:induction false} EventDispatchesAppend(now: int, uid: string, a: seq<Event>, b: seq<Event>)
    ensures EventDispatches(now, uid, a + b) == EventDispatches(now, uid, a) + EventDispatches(now, uid, b)
    decreases |a|
  {
    if |a| > 0 {
      assert (a + b)[1..] == a[1..] + b;
      EventDispatchesAppend(now, uid, a[1..], b);
    } else {
      assert a + b == b;
    }
  }

  /** Everything one user's scan yields: the dispatches of the events the
      store query returns. */
  function UserDispatches(now: int, u: User): seq<Dispatch> {
    EventDispatches(now, u.uid, UpcomingEvents(now, u.events))
  }

  /** The runs of a sequence of runs, one after the other. */
  function Flatten<T>(runs: seq<seq<T>>): (s: seq<T>)
    decreases |runs|
  {
    if |runs| == 0 then [] else runs[0] + Flatten(runs[1..])
  }

  lemma {:induction false} FlattenMembers<T>(runs: seq<seq<T>>, x: T)
    ensures x in Flatten(runs) <==> exists i :: 0 <= i < |runs| && x in runs[i]
    decreases |runs|
  {
    if |runs| > 0 {
      FlattenMembers(runs[1..], x);
      assert forall i | 0 < i < |runs| :: runs[i] == runs[1..][i - 1];
      if x in Flatten(runs[1..]) {
        var i :| 0 <= i < |runs[1..]| && x in runs[1..][i];
        assert x in runs[i + 1];
      }
    }
  }

  lemma {:induction false} FlattenAppend<T>(a: seq<seq<T>>, b: seq<seq<T>>)
    ensures Flatten(a + b) == Flatten(a) + Flatten(b)
    decreases |a|
  {
    if |a| > 0 {
      assert (a + b)[1..] == a[1..] + b;
      FlattenAppend(a[1..], b);
    } else {
      assert a + b == b;
    }
  }

  /** `f` applied to each element, in order. */
  function Map<T, U>(f: T -> U, s: seq<T>): (r: seq<U>)
    ensures |r| == |s|
  {
    seq(|s|, i requires 0 <= i < |s| => f(s[i]))
  }

  lemma {:induction false} MapAppend<T, U>(f: T -> U, a: seq<T>, b: seq<T>)
    ensures Map(f, a + b) == Map(f, a) + Map(f, b)
  {
    assert forall i | 0 <= i < |a + b| :: (a + b)[i] == if i < |a| then a[i] else b[i - |a|];
  }

  /** The dispatches of one user, as a function of the user. */
  function UserRun(now: int): User -> seq<Dispatch> {
    u => UserDispatches(now, u)
  }

  /** Each user's dispatches, in user order. */
  function PerUser(now: int, users: seq<User>): (runs: seq<seq<Dispatch>>)
    ensures |runs| == |users|
  {
    Map(UserRun(now), users)
  }

  /** The scan of one tick: every user's dispatches, in user order. */
  function Scan(now: int, users: seq<User>): (ds: seq<Dispatch>) {
    Flatten(PerUser(now, users))
  }

  lemma {:induction false} ScanMembers(now: int, users: seq<User>, d: Dispatch)
    ensures d in Scan(now, users) <==> exists u :: u in users && d in UserDispatches(now, u)
  {
    var runs := PerUser(now, users);
    FlattenMembers(runs, d);
    if d in Scan(now, users) {
      var i :| 0 <= i < |runs| && d in runs[i];
      assert users[i] in users && d in UserDispatches(now, users[i]);
    }
    if exists u :: u in users && d in UserDispatches(now, u) {
      var u :| u in users && d in UserDispatches(now, u);
      var i :| 0 <= i < |users| && users[i] == u;
      assert d in runs[i];
    }
  }

  /** User order is kept. */
  lemma {:induction false} ScanAppend(now: int, a: seq<User>, b: seq<User>)
    ensures Scan(now, a + b) == Scan(now, a) + Scan(now, b)
  {
    MapAppend(UserRun(now), a, b);
    FlattenAppend(PerUser(now, a), PerUser(now, b));
  }

  /** A rule of an event of a user is due in the tick at `now`: the event
      is returned by the store query and the rule's reminder time lies in
      the window. */
  predicate Due(now: int, u: User, e: Event, r: Rule) {
    && e in u.events
    && Upcoming(now, e)
    && r in RulesOf(e)
    && Fires(now, e.startAt.value, r)
  }

  /** The tick dispatches exactly one notification shape per due rule: a
      dispatch is produced iff some user has an upcoming event with a rule in
      the window, addressed to that user and built from that event and rule. */
  lemma {:induction false} ScanExactlyTheDueRules(now: int, users: seq<User>, d: Dispatch)
    ensures d in Scan(now, users) <==>
      exists u, e, r :: u in users && Due(now, u, e, r) &&
        d == Dispatch(u.uid, ReminderNotification(e.id, e.title, r))
  {
    ScanMembers(now, users, d);
    if d in Scan(now, users) {
      var u :| u in users && d in UserDispatches(now, u);
      EventDispatchesMembers(now, u.uid, UpcomingEvents(now, u.events), d);
      var e :| e in UpcomingEvents(now, u.events) && d.notification in EventNotifications(now, e);
      UpcomingEventsMembers(now, u.events, e);
      RuleNotificationsMembers(now, e.startAt.value, e, RulesOf(e), d.notification);
      var r :| r in RulesOf(e) && Fires(now, e.startAt.value, r) && d.notification == ReminderNotification(e.id, e.title, r);
      assert Due(now, u, e, r);
    }
    if exists u, e, r :: u in users && Due(now, u, e, r) &&
        d == Dispatch(u.uid, ReminderNotification(e.id, e.title, r)) {
      var u, e, r :| u in users && Due(now, u, e, r) &&
        d == Dispatch(u.uid, ReminderNotification(e.id, e.title, r));
      RuleNotificationsMembers(now, e.startAt.value, e, RulesOf(e), d.notification);
      assert d.notification in EventNotifications(now, e);
      UpcomingEventsMembers(now, u.events, e);
      EventDispatchesMembers(now, u.uid, UpcomingEvents(now, u.events), d);
      assert d in UserDispatches(now, u);
    }
  }

  /** Dropping an event that yields no notification from a run of events
      leaves its dispatches unchanged. */
  lemma {:induction false} EventDispatchesRemove(now: int, uid: string, e: Event, s: seq<Event>)
    requires EventNotifications(now, e) == []
    ensures EventDispatches(now, uid, Remove(e, s)) == EventDispatches(now, uid, s)
    decreases |s|
  {
    if |s| > 0 {
      var r := Remove(e, s[1..]);
      EventDispatchesRemove(now, uid, e, s[1..]);
      if s[0] == e {
        assert Remove(e, s) == r;
        assert EventDispatches(now, uid, s) == Address(uid, []) + EventDispatches(now, uid, s[1..]);
      } else {
        assert Remove(e, s) == [s[0]] + r;
        assert ([s[0]] + r)[1..] == r;
      }
    }
  }

  /** An event that the query does not return, or one without rules,
      contributes nothing, and the events around it are still scanned. */
  lemma SkippedEventYieldsNothing(now: int, uid: string, token: Option<string>, a: seq<Event>, e: Event, b: seq<Event>)
    requires !Upcoming(now, e) || RulesOf(e) == []
    ensures UserDispatches(now, User(uid, token, a + [e] + b)) == UserDispatches(now, User(uid, token, a + b))
  {
    if !Upcoming(now, e) {
      assert Matching(now, a + [e] + b) == Matching(now, a + b) by {
        MatchingAppend(now, a + [e], b);
        MatchingAppend(now, a, [e]);
        MatchingAppend(now, a, b);
        assert Matching(now, [e]) == [] + Matching(now, []);
      }
    } else {
      var full, rest := UpcomingEvents(now, a + [e] + b), UpcomingEvents(now, a + b);
      RemoveSkipped(now, e, a, b);
      EventDispatchesRemove(now, uid, e, full);
      EventDispatchesRemove(now, uid, e, rest);
    }
  }

  /** `profile.fcmToken` of the user document with id `uid`; absent when
      there is no such document. */
  function TokenOf(users: seq<User>, uid: string): (token: Option<string>)
    ensures token.Some? ==> exists u :: u in users && u.uid == uid && u.fcmToken == token
    decreases |users|
  {
    if |users| == 0 then None
    else if users[0].uid == uid then users[0].fcmToken
    else TokenOf(users[1..], uid)
  }

  /** User ids are document ids, hence distinct. */
  predicate DistinctUids(users: seq<User>) {
    forall i, j | 0 <= i < j < |users| :: users[i].uid != users[j].uid
  }

  /** With distinct ids, a user's token is found under the user's own id. */
  lemma {:induction false} TokenOfOwnUser(users: seq<User>, k: nat)
    requires DistinctUids(users) && k < |users|
    ensures TokenOf(users, users[k].uid) == users[k].fcmToken
    decreases k
  {
    if k > 0 {
      assert users[0].uid != users[k].uid;
      assert users[1..][k - 1] == users[k];
      TokenOfOwnUser(users[1..], k - 1);
    }
  }

  /** The push channel's answer to the send at position `k` of a tick, to
      a device token, of a notification: true when it accepts the message.
      The position lets identical sends get different answers. */
  type Channel = (nat, string, Notification) -> bool

  /** `sendFCMNotification`, as the `k`-th hand-over of the tick: no token
      (absent or empty) means no send; a send the channel rejects is caught
      and reported as a failure. */
  function SendFcm(uid: string, token: Option<string>, n: Notification, k: nat, accepts: Channel): (o: SendOutcome)
    ensures o.uid == uid && o.notification == n
    ensures o.Attempted() <==> Truthy(token)
    ensures o.Attempted() ==> o.token == token.value
    ensures o.Delivered? <==> Truthy(token) && accepts(k, token.value, n)
  {
    if !Truthy(token) then NoToken(uid, n)
    else if accepts(k, token.value, n) then Delivered(uid, token.value, n)
    else SendFailed(uid, token.value, n)
  }

  /** Hands each dispatch, in order, to the dispatcher; the first one is
      the `from`-th hand-over of the tick. */
  function Deliver(users: seq<User>, ds: seq<Dispatch>, from: nat, accepts: Channel): (os: seq<SendOutcome>)
    ensures |os| == |ds|
  {
    seq(|ds|, i requires 0 <= i < |ds| =>
      SendFcm(ds[i].uid, TokenOf(users, ds[i].uid), ds[i].notification, from + i, accepts))
  }

  lemma {:induction false} DeliverAppend(users: seq<User>, a: seq<Dispatch>, b: seq<Dispatch>, from: nat, accepts: Channel)
    ensures Deliver(users, a + b, from, accepts)
         == Deliver(users, a, from, accepts) + Deliver(users, b, from + |a|, accepts)
  {
    var ab := a + b;
    forall i | |a| <= i < |ab|
      ensures Deliver(users, ab, from, accepts)[i] == Deliver(users, b, from + |a|, accepts)[i - |a|]
    {
      assert ab[i] == b[i - |a|];
    }
  }

  /** Delivering two runs of dispatches one after the other is delivering
      their concatenation. */
  lemma DeliverConcat(users: seq<User>, a: seq<Dispatch>, b: seq<Dispatch>, from: nat,
                      x: seq<SendOutcome>, y: seq<SendOutcome>, accepts: Channel)
    requires x == Deliver(users, a, from, accepts)
    requires y == Deliver(users, b, from + |x|, accepts)
    ensures x + y == Deliver(users, a + b, from, accepts)
  {
    DeliverAppend(users, a, b, from, accepts);
  }

  /** The outcomes of a whole tick. */
  function TickOutcomes(now: int, users: seq<User>, accepts: Channel): seq<SendOutcome> {
    Deliver(users, Scan(now, users), 0, accepts)
  }

  /** A rejected send never stops the tick: whatever the channel answers,
      every dispatch of the scan is handed over, in order, to the same user
      with the same notification, a send is attempted exactly when that
      user has a token, and the `i`-th send is delivered exactly when the
      channel accepts the `i`-th hand-over. */
  lemma FailuresDoNotStopTheTick(now: int, users: seq<User>, accepts: Channel)
    ensures var os, ds := TickOutcomes(now, users, accepts), Scan(now, users);
      && |os| == |ds|
      && forall i | 0 <= i < |os| ::
           && os[i].uid == ds[i].uid
           && os[i].notification == ds[i].notification
           && (os[i].Attempted() <==> Truthy(TokenOf(users, ds[i].uid)))
           && (os[i].Delivered? <==>
                 Truthy(TokenOf(users, ds[i].uid)) && accepts(i, TokenOf(users, ds[i].uid).value, ds[i].notification))
  {
  }

  /** A user without a device token gets no send attempt. */
  lemma NoTokenNoSend(now: int, users: seq<User>, accepts: Channel, k: nat)
    requires DistinctUids(users) && k < |users|
    requires !Truthy(users[k].fcmToken)
    ensures forall o | o in TickOutcomes(now, users, accepts) && o.uid == users[k].uid :: !o.Attempted()
  {
    TokenOfOwnUser(users, k);
  }

  lemma PrefixStep<T>(s: seq<T>, k: nat)
    requires k < |s|
    ensures s[..k + 1] == s[..k] + [s[k]]
  {
  }

  /** One pass of the innermost loop adds the outcome of one rule. */
  lemma RuleStep(now: int, users: seq<User>, uid: string, start: int, e: Event, rules: seq<Rule>, k: nat,
                 from: nat, outcomes: seq<SendOutcome>, accepts: Channel)
    requires k < |rules|
    requires outcomes == Deliver(users, Address(uid, RuleNotifications(now, start, e, rules[..k])), from, accepts)
    ensures outcomes
       + (if Fires(now, start, rules[k])
          then [SendFcm(uid, TokenOf(users, uid), ReminderNotification(e.id, e.title, rules[k]), from + |outcomes|, accepts)]
          else [])
      == Deliver(users, Address(uid, RuleNotifications(now, start, e, rules[..k + 1])), from, accepts)
  {
    var done := RuleNotifications(now, start, e, rules[..k]);
    var step := RuleNotifications(now, start, e, [rules[k]]);
    assert Address(uid, RuleNotifications(now, start, e, rules[..k + 1])) == Address(uid, done) + Address(uid, step) by {
      PrefixStep(rules, k);
      RuleNotificationsAppend(now, start, e, rules[..k], [rules[k]]);
      AddressAppend(uid, done, step);
    }
    assert |outcomes| == |Address(uid, done)|;
    DeliverAppend(users, Address(uid, done), Address(uid, step), from, accepts);
    var n := ReminderNotification(e.id, e.title, rules[k]);
    if Fires(now, start, rules[k]) {
      assert step == [n] + RuleNotifications(now, start, e, []);
      assert Address(uid, step) == [Dispatch(uid, n)];
      assert Deliver(users, [Dispatch(uid, n)], from + |outcomes|, accepts)
          == [SendFcm(uid, TokenOf(users, uid), n, from + |outcomes|, accepts)] + Deliver(users, [], from + |outcomes| + 1, accepts);
    } else {
      assert step == [];
    }
  }

  /** The innermost loop of the handler: the rules of one event, in order,
      the first send being the `from`-th hand-over of the tick. */
  method RunRules(now: int, users: seq<User>, uid: string, start: int, e: Event, rules: seq<Rule>,
                  from: nat, accepts: Channel)
    returns (outcomes: seq<SendOutcome>)
    ensures outcomes == Deliver(users, Address(uid, RuleNotifications(now, start, e, rules)), from, accepts)
  {
    outcomes := [];
    var k := 0;
    while k < |rules|
      invariant 0 <= k <= |rules|
      invariant outcomes == Deliver(users, Address(uid, RuleNotifications(now, start, e, rules[..k])), from, accepts)
    {
      var rule := rules[k];
      RuleStep(now, users, uid, start, e, rules, k, from, outcomes, accepts);
      if Fires(now, start, rule) {
        var n := ReminderNotification(e.id, e.title, rule);
        outcomes := outcomes + [SendFcm(uid, TokenOf(users, uid), n, from + |outcomes|, accepts)];
      } else {
        assert outcomes + [] == outcomes;
      }
      k := k + 1;
    }
    assert rules[..k] == rules;
  }

  /** One pass of the middle loop adds the outcomes of one event. */
  lemma EventStep(now: int, users: seq<User>, uid: string, events: seq<Event>, j: nat,
                  from: nat, outcomes: seq<SendOutcome>, more: seq<SendOutcome>, accepts: Channel)
    requires j < |events|
    requires outcomes == Deliver(users, EventDispatches(now, uid, events[..j]), from, accepts)
    requires more == Deliver(users, Address(uid, EventNotifications(now, events[j])), from + |outcomes|, accepts)
    ensures outcomes + more == Deliver(users, EventDispatches(now, uid, events[..j + 1]), from, accepts)
  {
    EventDispatchesSnoc(now, uid, events, j);
    DeliverConcat(users, EventDispatches(now, uid, events[..j]), Address(uid, EventNotifications(now, events[j])),
                  from, outcomes, more, accepts);
  }

  lemma EventDispatchesSnoc(now: int, uid: string, events: seq<Event>, j: nat)
    requires j < |events|
    ensures EventDispatches(now, uid, events[..j + 1])
         == EventDispatches(now, uid, events[..j]) + Address(uid, EventNotifications(now, events[j]))
  {
    PrefixStep(events, j);
    EventDispatchesAppend(now, uid, events[..j], [events[j]]);
    EventDispatchesSingle(now, uid, events[j]);
  }

  /** The middle loop of the handler over the events of one user, in the
      order given; an event without a start is skipped. */
  method RunEvents(now: int, users: seq<User>, uid: string, events: seq<Event>, from: nat, accepts: Channel)
    returns (outcomes: seq<SendOutcome>)
    ensures outcomes == Deliver(users, EventDispatches(now, uid, events), from, accepts)
  {
    outcomes := [];
    var j := 0;
    while j < |events|
      invariant 0 <= j <= |events|
      invariant outcomes == Deliver(users, EventDispatches(now, uid, events[..j]), from, accepts)
    {
      var e := events[j];
      var more := [];
      if e.startAt.Some? {
        more := RunRules(now, users, uid, e.startAt.value, e, RulesOf(e), from + |outcomes|, accepts);
        assert EventNotifications(now, e) == RuleNotifications(now, e.startAt.value, e, RulesOf(e));
      } else {
        assert Address(uid, EventNotifications(now, e)) == [];
      }
      EventStep(now, users, uid, events, j, from, outcomes, more, accepts);
      outcomes := outcomes + more;
      j := j + 1;
    }
    assert events[..j] == events;
  }

  /** The scan of one user: the events the store query returns. */
  method RunUser(now: int, users: seq<User>, u: User, from: nat, accepts: Channel)
    returns (outcomes: seq<SendOutcome>)
    ensures outcomes == Deliver(users, UserDispatches(now, u), from, accepts)
  {
    var events := UpcomingEvents(now, u.events);
    outcomes := RunEvents(now, users, u.uid, events, from, accepts);
  }

  /** One pass of the outer loop adds the outcomes of one user. */
  lemma UserStep(now: int, users: seq<User>, i: nat, accepts: Channel)
    requires i < |users|
    ensures Deliver(users, Scan(now, users[..i + 1]), 0, accepts)
         == Deliver(users, Scan(now, users[..i]), 0, accepts)
            + Deliver(users, UserDispatches(now, users[i]), |Scan(now, users[..i])|, accepts)
  {
    ScanSnoc(now, users, i);
    DeliverAppendFromStart(users, Scan(now, users[..i]), UserDispatches(now, users[i]), accepts);
  }

  lemma DeliverAppendFromStart(users: seq<User>, a: seq<Dispatch>, b: seq<Dispatch>, accepts: Channel)
    ensures Deliver(users, a + b, 0, accepts) == Deliver(users, a, 0, accepts) + Deliver(users, b, |a|, accepts)
  {
    DeliverAppend(users, a, b, 0, accepts);
  }

  lemma ScanSnoc(now: int, users: seq<User>, i: nat)
    requires i < |users|
    ensures Scan(now, users[..i + 1]) == Scan(now, users[..i]) + UserDispatches(now, users[i])
  {
    var u := users[i];
    PrefixStep(users, i);
    ScanAppend(now, users[..i], [u]);
    assert PerUser(now, [u]) == [UserDispatches(now, u)];
    assert Flatten([UserDispatches(now, u)]) == UserDispatches(now, u) + Flatten<Dispatch>([]);
  }

  /** The scheduler loop as the handler runs it: sequentially over users,
      with no early exit. */
  method RunTick(now: int, users: seq<User>, accepts: Channel)
    returns (outcomes: seq<SendOutcome>)
    ensures outcomes == TickOutcomes(now, users, accepts)
  {
    outcomes := [];
    var i := 0;
    while i < |users|
      invariant 0 <= i <= |users|
      invariant outcomes == Deliver(users, Scan(now, users[..i]), 0, accepts)
    {
      var more := RunUser(now, users, users[i], |outcomes|, accepts);
      UserStep(now, users, i, accepts);
      outcomes := outcomes + more;
      i := i + 1;
    }
    assert users[..i] == users;
  }
}

=== FILE: sheets_export.dfy ===
/** The export-to-spreadsheet handler: six collections of a user's documents
    reshaped into six sheets of rows, and the row-count summary recorded for
    the export job. Rendered dates are the ISO 8601 strings of the fields
    that are set; the store is a parameter. */
module SheetsExport {
  import opened Wrappers
  import opened Text
  import opened Callable

  /** A task document. `isCompleted` is false when the field is absent. */
  datatype TaskDoc = TaskDoc(
    id: string, title: Option<string>, description: Option<string>, isCompleted: bool,
    reminderAt: Option<string>, createdAt: Option<string>, completedAt: Option<string>)

  datatype ActivityDoc = ActivityDoc(
    id: string, title: Option<string>, description: Option<string>,
    activityAt: Option<string>, categoryId: Option<string>)

  datatype EventDoc = EventDoc(id: string, title: Option<string>, startAt: Option<string>, endAt: Option<string>)

  datatype RuleSetDoc = RuleSetDoc(
    id: string, name: Option<string>, category: Option<string>, tone: Option<string>, emojiPolicy: Option<string>)

  datatype MessageDoc = MessageDoc(id: string, title: Option<string>, content: Option<string>, createdAt: Option<string>)

  /** Row shapes of the six sheets. A title (and the rule-set fields) is
      copied as it is, absent included; every other optional field becomes
      "" when absent. */
  datatype TodoRow = TodoRow(id: string, title: Option<string>, description: string, reminderAt: string, createdAt: string)
  datatype DoneRow = DoneRow(id: string, title: Option<string>, completedAt: string)
  datatype ActivityRow = ActivityRow(id: string, title: Option<string>, description: string, at: string, category: string)
  datatype EventRow = EventRow(id: string, title: Option<string>, start: string, end: string)
  datatype RuleSetRow = RuleSetRow(id: string, name: Option<string>, category: Option<string>, tone: Option<string>, emoji: Option<string>)
  datatype MessageRow = MessageRow(id: string, title: Option<string>, content: string, createdAt: string)

  /** The six sheets, in the order they are declared. */
  datatype Sheets = Sheets(
    todo: seq<TodoRow>, done: seq<DoneRow>, activities: seq<ActivityRow>,
    events: seq<EventRow>, ruleSets: seq<RuleSetRow>, messages: seq<MessageRow>)

  const SheetNames := ["Tasks_Todo", "Tasks_Done", "Activities", "CalendarEvents", "AIRuleSets", "GeneratedMessages"]

  /** The longest message content a row keeps. */
  const ContentLimit: nat := 200

  /** A user's five collections as the store returns them. */
  datatype UserData = UserData(
    tasks: seq<TaskDoc>, activities: seq<ActivityDoc>, events: seq<EventDoc>,
    ruleSets: seq<RuleSetDoc>, messages: seq<MessageDoc>)

  /** Open tasks (`isCompleted` falsy), in order. */
  function OpenTasks(tasks: seq<TaskDoc>): (r: seq<TaskDoc>)
    decreases |tasks|
  {
    if |tasks| == 0 then []
    else (if !tasks[0].isCompleted then [tasks[0]] else []) + OpenTasks(tasks[1..])
  }

  /** Completed tasks (`isCompleted` truthy), in order. */
  function CompletedTasks(tasks: seq<TaskDoc>): (r: seq<TaskDoc>)
    decreases |tasks|
  {
    if |tasks| == 0 then []
    else (if tasks[0].isCompleted then [tasks[0]] else []) + CompletedTasks(tasks[1..])
  }

  /** The two filters select exactly the open and the completed tasks. */
  lemma {:induction false} TaskFiltersSelect(tasks: seq<TaskDoc>, t: TaskDoc)
    ensures t in OpenTasks(tasks) <==> t in tasks && !t.isCompleted
    ensures t in CompletedTasks(tasks) <==> t in tasks && t.isCompleted
    decreases |tasks|
  {
    if |tasks| > 0 {
      TaskFiltersSelect(tasks[1..], t);
      assert t in tasks <==> t == tasks[0] || t in tasks[1..];
    }
  }

  /** The two filters split a task list exactly: together they hold every task
      as often as the collection does, so their sizes sum to its size. */
  lemma TasksPartition(tasks: seq<TaskDoc>)
    ensures multiset(OpenTasks(tasks)) + multiset(CompletedTasks(tasks)) == multiset(tasks)
    ensures |OpenTasks(tasks)| + |CompletedTasks(tasks)| == |tasks|
  {
    TasksSplit(tasks);
    assert |multiset(OpenTasks(tasks))| + |multiset(CompletedTasks(tasks))| == |multiset(tasks)|;
  }

  lemma {:induction false} TasksSplit(tasks: seq<TaskDoc>)
    ensures multiset(OpenTasks(tasks)) + multiset(CompletedTasks(tasks)) == multiset(tasks)
    decreases |tasks|
  {
    if |tasks| > 0 {
      var t, rest := tasks[0], tasks[1..];
      var mo, mc := multiset(OpenTasks(rest)), multiset(CompletedTasks(rest));
      TasksSplit(rest);
      assert multiset(tasks) == multiset{t} + multiset(rest) by {
        assert tasks == [t] + rest;
      }
      if t.isCompleted {
        assert OpenTasks(tasks) == OpenTasks(rest);
        assert multiset(CompletedTasks(tasks)) == multiset{t} + mc by {
          assert CompletedTasks(tasks) == [t] + CompletedTasks(rest);
        }
      } else {
        assert CompletedTasks(tasks) == CompletedTasks(rest);
        assert multiset(OpenTasks(tasks)) == multiset{t} + mo by {
          assert OpenTasks(tasks) == [t] + OpenTasks(rest);
        }
      }
    }
  }

  /** Both filters keep the collection's order. */
  lemma {:induction false} TaskFiltersAppend(a: seq<TaskDoc>, b: seq<TaskDoc>)
    ensures OpenTasks(a + b) == OpenTasks(a) + OpenTasks(b)
    ensures CompletedTasks(a + b) == CompletedTasks(a) + CompletedTasks(b)
    decreases |a|
  {
    if |a| > 0 {
      assert (a + b)[1..] == a[1..] + b;
      TaskFiltersAppend(a[1..], b);
    } else {
      assert a + b == b;
    }
  }

  /** The ids of some tasks, in order. */
  function TaskIds(tasks: seq<TaskDoc>): (ids: seq<string>)
    ensures |ids| == |tasks|
    ensures forall i | 0 <= i < |tasks| :: ids[i] == tasks[i].id
  {
    seq(|tasks|, i requires 0 <= i < |tasks| => tasks[i].id)
  }

  lemma TaskIdsAppend(a: seq<TaskDoc>, b: seq<TaskDoc>)
    ensures TaskIds(a + b) == TaskIds(a) + TaskIds(b)
  {
  }

  /** Every task id goes to exactly one of the two filters. */
  lemma {:induction false} TaskIdsPartition(tasks: seq<TaskDoc>)
    ensures multiset(TaskIds(OpenTasks(tasks))) + multiset(TaskIds(CompletedTasks(tasks))) == multiset(TaskIds(tasks))
    decreases |tasks|
  {
    if |tasks| > 0 {
      var t, rest := tasks[0], tasks[1..];
      var o: seq<TaskDoc> := if !t.isCompleted then [t] else [];
      var c: seq<TaskDoc> := if t.isCompleted then [t] else [];
      TaskIdsPartition(rest);
      assert tasks == [t] + rest;
      TaskIdsAppend([t], rest);
      TaskIdsAppend(o, OpenTasks(rest));
      TaskIdsAppend(c, CompletedTasks(rest));
      assert multiset(TaskIds(o)) + multiset(TaskIds(c)) == multiset(TaskIds([t]));
    }
  }

  /** `x?.toDate?.()?.toISOString() || ""` and `x || ""`. */
  function OrEmpty(o: Option<string>): (s: string)
    ensures o.None? ==> s == ""
    ensures o.Some? ==> s == o.value
  {
    OrElse(o, "")
  }

  function ToTodoRow(t: TaskDoc): TodoRow {
    TodoRow(t.id, t.title, OrEmpty(t.description), OrEmpty(t.reminderAt), OrEmpty(t.createdAt))
  }

  function ToDoneRow(t: TaskDoc): DoneRow {
    DoneRow(t.id, t.title, OrEmpty(t.completedAt))
  }

  /** The `Tasks_Todo` sheet: one row per open task, in order. */
  function TodoSheet(tasks: seq<TaskDoc>): (rows: seq<TodoRow>)
    ensures |rows| == |OpenTasks(tasks)|
    ensures forall i | 0 <= i < |rows| :: rows[i] == ToTodoRow(OpenTasks(tasks)[i])
  {
    var open := OpenTasks(tasks);
    seq(|open|, i requires 0 <= i < |open| => ToTodoRow(open[i]))
  }

  /** The `Tasks_Done` sheet: one row per completed task, in order. */
  function DoneSheet(tasks: seq<TaskDoc>): (rows: seq<DoneRow>)
    ensures |rows| == |CompletedTasks(tasks)|
    ensures forall i | 0 <= i < |rows| :: rows[i] == ToDoneRow(CompletedTasks(tasks)[i])
  {
    var done := CompletedTasks(tasks);
    seq(|done|, i requires 0 <= i < |done| => ToDoneRow(done[i]))
  }

  function TodoIds(rows: seq<TodoRow>): seq<string> {
    seq(|rows|, i requires 0 <= i < |rows| => rows[i].id)
  }

  function DoneIds(rows: seq<DoneRow>): seq<string> {
    seq(|rows|, i requires 0 <= i < |rows| => rows[i].id)
  }

  /** The two task sheets split all task ids: every task's id is the id of
      exactly one row of `Tasks_Todo` or `Tasks_Done`. */
  lemma TaskSheetsPartitionIds(tasks: seq<TaskDoc>)
    ensures multiset(TodoIds(TodoSheet(tasks))) + multiset(DoneIds(DoneSheet(tasks))) == multiset(TaskIds(tasks))
  {
    TaskIdsPartition(tasks);
    assert TodoIds(TodoSheet(tasks)) == TaskIds(OpenTasks(tasks));
    assert DoneIds(DoneSheet(tasks)) == TaskIds(CompletedTasks(tasks));
  }

  /** The `Activities` sheet: one row per activity, in order. */
  function ActivitySheet(docs: seq<ActivityDoc>): (rows: seq<ActivityRow>)
    ensures |rows| == |docs|
    ensures forall i | 0 <= i < |docs| ::
      && rows[i].id == docs[i].id && rows[i].title == docs[i].title
      && (docs[i].description.None? ==> rows[i].description == "")
      && (docs[i].description.Some? ==> rows[i].description == docs[i].description.value)
      && (docs[i].activityAt.None? ==> rows[i].at == "")
      && (docs[i].activityAt.Some? ==> rows[i].at == docs[i].activityAt.value)
      && (docs[i].categoryId.None? ==> rows[i].category == "")
      && (docs[i].categoryId.Some? ==> rows[i].category == docs[i].categoryId.value)
  {
    seq(|docs|, i requires 0 <= i < |docs| =>
      ActivityRow(docs[i].id, docs[i].title, OrEmpty(docs[i].description),
                  OrEmpty(docs[i].activityAt), OrEmpty(docs[i].categoryId)))
  }

  /** The `CalendarEvents` sheet: one row per event, in order. */
  function EventSheet(docs: seq<EventDoc>): (rows: seq<EventRow>)
    ensures |rows| == |docs|
    ensures forall i | 0 <= i < |docs| ::
      && rows[i].id == docs[i].id && rows[i].title == docs[i].title
      && (docs[i].startAt.None? ==> rows[i].start == "")
      && (docs[i].startAt.Some? ==> rows[i].start == docs[i].startAt.value)
      && (docs[i].endAt.None? ==> rows[i].end == "")
      && (docs[i].endAt.Some? ==> rows[i].end == docs[i].endAt.value)
  {
    seq(|docs|, i requires 0 <= i < |docs| =>
      EventRow(docs[i].id, docs[i].title, OrEmpty(docs[i].startAt), OrEmpty(docs[i].endAt)))
  }

  /** The `AIRuleSets` sheet: one row per rule set, fields copied as they are. */
  function RuleSetSheet(docs: seq<RuleSetDoc>): (rows: seq<RuleSetRow>)
    ensures |rows| == |docs|
    ensures forall i | 0 <= i < |docs| ::
      rows[i].id == docs[i].id && rows[i].name == docs[i].name && rows[i].category == docs[i].category
      && rows[i].tone == docs[i].tone && rows[i].emoji == docs[i].emojiPolicy
  {
    seq(|docs|, i requires 0 <= i < |docs| =>
      RuleSetRow(docs[i].id, docs[i].name, docs[i].category, docs[i].tone, docs[i].emojiPolicy))
  }

  /** `content?.substring(0, 200) || ""`: the first 200 characters of the
      content, all of it when shorter, "" when absent. */
  function ContentPreview(content: Option<string>): (c: string)
    ensures |c| <= ContentLimit
    ensures content.None? ==> c == ""
    ensures content.Some? ==> StartsWith(content.value, c)
    ensures content.Some? && |content.value| <= ContentLimit ==> c == content.value
    ensures content.Some? && |content.value| >= ContentLimit ==> |c| == ContentLimit
  {
    match content
    case None => ""
    case Some(s) => Take(s, ContentLimit)
  }

  /** The `GeneratedMessages` sheet: one row per message, in order. */
  function MessageSheet(docs: seq<MessageDoc>): (rows: seq<MessageRow>)
    ensures |rows| == |docs|
    ensures forall i | 0 <= i < |docs| ::
      && rows[i].id == docs[i].id && rows[i].title == docs[i].title
      && rows[i].content == ContentPreview(docs[i].content)
      && (docs[i].createdAt.None? ==> rows[i].createdAt == "")
      && (docs[i].createdAt.Some? ==> rows[i].createdAt == docs[i].createdAt.value)
  {
    seq(|docs|, i requires 0 <= i < |docs| =>
      MessageRow(docs[i].id, docs[i].title, ContentPreview(docs[i].content), OrEmpty(docs[i].createdAt)))
  }

  /** `sheetsData`. */
  function BuildSheets(data: UserData): Sheets {
    Sheets(TodoSheet(data.tasks), DoneSheet(data.tasks), ActivitySheet(data.activities),
           EventSheet(data.events), RuleSetSheet(data.ruleSets), MessageSheet(data.messages))
  }

  /** The lengths of the sheets, in declaration order
      (`Object.values(sheetsData)`). */
  function SheetLengths(s: Sheets): (lengths: seq<nat>)
    ensures |lengths| == |SheetNames|
  {
    [|s.todo|, |s.done|, |s.activities|, |s.events|, |s.ruleSets|, |s.messages|]
  }

  /** `reduce((sum, arr) => sum + arr.length, 0)`. */
  function Sum(xs: seq<nat>): nat
    decreases |xs|
  {
    if |xs| == 0 then 0 else Sum(xs[..|xs| - 1]) + xs[|xs| - 1]
  }

  /** The summary recorded for the export job. */
  datatype ResultMeta = ResultMeta(totalRows: nat, sheets: seq<string>)

  /** `resultMeta`: the total row count over all sheets, and the sheet names. */
  function Meta(s: Sheets): ResultMeta {
    ResultMeta(Sum(SheetLengths(s)), SheetNames)
  }

  /** Every document lands in exactly one row: the total row count is the
      number of documents read, and the sheet names come in declaration
      order. */
  lemma TotalRowsCountsDocuments(data: UserData)
    ensures Meta(BuildSheets(data)).totalRows
         == |data.tasks| + |data.activities| + |data.events| + |data.ruleSets| + |data.messages|
    ensures Meta(BuildSheets(data)).sheets
         == ["Tasks_Todo", "Tasks_Done", "Activities", "CalendarEvents", "AIRuleSets", "GeneratedMessages"]
  {
    TasksPartition(data.tasks);
    var l := SheetLengths(BuildSheets(data));
    assert Sum(l[..1]) == l[0] by { assert l[..1][..0] == []; }
    assert Sum(l[..2]) == Sum(l[..1]) + l[1] by { assert l[..2][..1] == l[..1]; }
    assert Sum(l[..3]) == Sum(l[..2]) + l[2] by { assert l[..3][..2] == l[..2]; }
    assert Sum(l[..4]) == Sum(l[..3]) + l[3] by { assert l[..4][..3] == l[..3]; }
    assert Sum(l[..5]) == Sum(l[..4]) + l[4] by { assert l[..5][..4] == l[..4]; }
    assert Sum(l) == Sum(l[..5]) + l[5];
  }

  /** The job record the handler writes. */
  datatype SyncJob = SyncJob(kind: string, status: string, meta: ResultMeta)

  /** The handler's response. */
  datatype Exported = Exported(success: bool, job: SyncJob, data: Sheets)

  /** The collections of user `uid`; a user without documents has empty
      collections. */
  function Collections(store: map<string, UserData>, uid: string): UserData {
    if uid in store then store[uid] else UserData([], [], [], [], [])
  }

  /** `exportToSheets`: the caller's id (absent when unauthenticated) and the
      store's collections per user. */
  function ExportToSheets(auth: Option<string>, store: map<string, UserData>): (r: Result<Exported, HttpsError>)
    ensures auth.None? <==> r == Failure(Unauthenticated)
    ensures r.Success? ==>
      && r.value.success
      && r.value.job.kind == "export_sheets" && r.value.job.status == "completed"
      && r.value.data == BuildSheets(Collections(store, auth.value))
      && r.value.job.meta == Meta(r.value.data)
  {
    if auth.None? then Failure(Unauthenticated)
    else
      var sheets := BuildSheets(Collections(store, auth.value));
      Success(Exported(true, SyncJob("export_sheets", "completed", Meta(sheets)), sheets))
  }

  /** An unauthenticated call is rejected whatever the store holds: nothing
      is read before the check. */
  lemma UnauthenticatedReadsNothing(a: map<string, UserData>, b: map<string, UserData>)
    ensures ExportToSheets(None, a) == ExportToSheets(None, b) == Failure(Unauthenticated)
  {
  }
}

=== FILE: text.dfy ===
/** The JavaScript string idioms the handlers rely on: truthiness of an
    optional string, the `a || b` fallback, template interpolation of a field
    that may be undefined, `Array.prototype.join`, `substring(0, n)` and the
    decimal rendering of an integral number. */
module Text {
  import opened Wrappers

  /** JavaScript truthiness of an optional string field: `undefined` and `""`
      are falsy, every other string is truthy. */
  predicate Truthy(o: Option<string>) {
    o.Some? && o.value != ""
  }

  /** `o || fallback` for an optional string. */
  function OrElse(o: Option<string>, fallback: string): (r: string)
    ensures Truthy(o) ==> r == o.value
    ensures !Truthy(o) ==> r == fallback
  {
    if Truthy(o) then o.value else fallback
  }

  /** `${o}` in a template literal: an undefined field renders as "undefined". */
  function Show(o: Option<string>): string {
    match o
    case Some(s) => s
    case None => "undefined"
  }

  /** `p` is a prefix of `s`. */
  predicate StartsWith(s: string, p: string) {
    |p| <= |s| && s[..|p|] == p
  }

  /** `p` is a suffix of `s`. */
  predicate EndsWith(s: string, p: string) {
    |p| <= |s| && s[|s| - |p|..] == p
  }

  /** Two strings that differ at a position both cover are never prefixes of
      one string together. */
  lemma {:induction false} DistinctPrefixes(s: string, p: string, q: string, k: nat)
    requires k < |p| && k < |q| && p[k] != q[k]
    requires StartsWith(s, p)
    ensures !StartsWith(s, q)
  {
    assert s[k] == s[..|p|][k] == p[k];
  }

  /** `items.join(sep)`. */
  function Join(items: seq<string>, sep: string): string
    decreases |items|
  {
    if |items| == 0 then ""
    else if |items| == 1 then items[0]
    else items[0] + sep + Join(items[1..], sep)
  }

  /** Joining a list extended at the end appends the separator and the new
      item to the join of the list. */
  lemma {:induction false} JoinSnoc(items: seq<string>, x: string, sep: string)
    requires |items| > 0
    ensures Join(items + [x], sep) == Join(items, sep) + sep + x
    decreases |items|
  {
    if |items| == 1 {
      assert items + [x] == [items[0], x];
      assert ([items[0], x])[1..] == [x];
    } else {
      assert (items + [x])[1..] == items[1..] + [x];
      JoinSnoc(items[1..], x, sep);
    }
  }

  lemma PrefixOfConcat(p: string, t: string)
    ensures StartsWith(p + t, p)
  {
    assert (p + t)[..|p|] == p;
  }

  lemma SuffixOfConcat(x: string, t: string)
    ensures EndsWith(x + t, t)
  {
    assert (x + t)[|x + t| - |t|..] == t;
  }

  /** The join of two or more items is the first item, a separator and the
      join of the rest. */
  lemma JoinStart(items: seq<string>, sep: string)
    requires |items| >= 2
    ensures StartsWith(Join(items, sep), items[0] + sep)
  {
    assert Join(items, sep) == (items[0] + sep) + Join(items[1..], sep);
    PrefixOfConcat(items[0] + sep, Join(items[1..], sep));
  }

  /** The join of three or more items ends with the last two items, each
      after a separator. */
  lemma JoinLastTwo(items: seq<string>, sep: string)
    requires |items| >= 3
    ensures var n := |items|;
      Join(items, sep) == Join(items[..n - 2], sep) + (sep + items[n - 2] + sep + items[n - 1])
  {
    var n := |items|;
    var init := items[..n - 2];
    assert items == init + [items[n - 2]] + [items[n - 1]];
    JoinSnocTwice(init, items[n - 2], items[n - 1], sep);
  }

  lemma {:induction false} JoinSnocTwice(init: seq<string>, a: string, b: string, sep: string)
    requires |init| > 0
    ensures Join(init + [a] + [b], sep) == Join(init, sep) + (sep + a + sep + b)
  {
    var j := Join(init, sep);
    var ja := Join(init + [a], sep);
    assert ja == j + sep + a by {
      JoinSnoc(init, a, sep);
    }
    assert Join(init + [a] + [b], sep) == ja + sep + b by {
      JoinSnoc(init + [a], b, sep);
    }
    Regroup(j, sep, a, b);
  }

  lemma Regroup(j: string, sep: string, a: string, b: string)
    ensures (j + sep + a) + sep + b == j + (sep + a + sep + b)
  {
  }

  /** The join of three or more items begins with the first item and a
      separator, and ends with the last two items, each after a separator. */
  lemma JoinFrame(items: seq<string>, sep: string)
    requires |items| >= 3
    ensures StartsWith(Join(items, sep), items[0] + sep)
    ensures EndsWith(Join(items, sep), sep + items[|items| - 2] + sep + items[|items| - 1])
  {
    var n := |items|;
    JoinStart(items, sep);
    JoinLastTwo(items, sep);
    SuffixOfConcat(Join(items[..n - 2], sep), sep + items[n - 2] + sep + items[n - 1]);
  }

  /** `s.substring(0, n)` for `n >= 0`: at most the first `n` characters. */
  function Take(s: string, n: nat): (r: string)
    ensures |r| <= n
    ensures StartsWith(s, r)
    ensures |s| <= n ==> r == s
    ensures n <= |s| ==> |r| == n
  {
    if |s| <= n then s else s[..n]
  }

  /** The decimal digit character of `d`. */
  function DigitChar(d: nat): char
    requires d < 10
  {
    "0123456789"[d]
  }

  /** The numeric value of a decimal digit character. */
  function DigitValue(c: char): nat
    requires IsDigit(c)
  {
    (c as int - '0' as int) as nat
  }

  predicate IsDigit(c: char) {
    '0' <= c <= '9'
  }

  predicate AllDigits(s: string) {
    forall i | 0 <= i < |s| :: IsDigit(s[i])
  }

  /** The decimal rendering of a natural number, most significant digit first,
      without leading zeros. */
  function NatToDecimal(n: nat): (r: string)
    ensures |r| > 0 && AllDigits(r)
    ensures r[0] == '0' ==> n == 0
    decreases n
  {
    if n < 10 then [DigitChar(n)]
    else NatToDecimal(n / 10) + [DigitChar(n % 10)]
  }

  /** The value of a string of decimal digits. */
  function ParseNat(s: string): nat
    requires AllDigits(s)
    decreases |s|
  {
    if |s| == 0 then 0
    else 10 * ParseNat(s[..|s| - 1]) + DigitValue(s[|s| - 1])
  }

  /** Reading back a rendered natural number gives the number. */
  lemma {:induction false} NatRoundTrip(n: nat)
    ensures ParseNat(NatToDecimal(n)) == n
    decreases n
  {
    var r := NatToDecimal(n);
    if n < 10 {
      assert r[..0] == [];
    } else {
      assert r[..|r| - 1] == NatToDecimal(n / 10);
      NatRoundTrip(n / 10);
    }
  }

  /** `${v}` for an integral number: a minus sign before the digits of a
      negative value. */
  function IntToDecimal(v: int): (r: string)
    ensures |r| > 0 && r[0] != ' '
    ensures forall i | 0 <= i < |r| :: r[i] != ' '
  {
    if v < 0 then "-" + NatToDecimal(-v) else NatToDecimal(v)
  }

  /** Reads an optionally signed decimal integer; None for anything else. */
  function ParseInt(s: string): Option<int> {
    if |s| > 0 && s[0] == '-' then
      if |s| > 1 && AllDigits(s[1..]) then Some(-(ParseNat(s[1..]) as int)) else None
    else if |s| > 0 && AllDigits(s) then Some(ParseNat(s))
    else None
  }

  /** A minus sign followed by digits reads as the negated digits. */
  lemma ParseSigned(d: string)
    requires |d| > 0 && AllDigits(d)
    ensures ParseInt("-" + d) == Some(-(ParseNat(d) as int))
  {
    assert ("-" + d)[1..] == d;
  }

  lemma NegativeRoundTrip(v: int)
    requires v < 0
    ensures ParseInt(IntToDecimal(v)) == Some(v)
  {
    var n: nat := -v;
    var d := NatToDecimal(n);
    NatRoundTrip(n);
    assert IntToDecimal(v) == "-" + d;
    ParseSigned(d);
  }

  lemma NonNegativeRoundTrip(v: int)
    requires v >= 0
    ensures ParseInt(IntToDecimal(v)) == Some(v)
  {
    var d := NatToDecimal(v);
    assert IsDigit(d[0]);
    NatRoundTrip(v);
  }

  /** Reading back a rendered integer gives the integer. */
  lemma IntRoundTrip(v: int)
    ensures ParseInt(IntToDecimal(v)) == Some(v)
  {
    if v < 0 {
      NegativeRoundTrip(v);
    } else {
      NonNegativeRoundTrip(v);
    }
  }

  /** The characters of `s` before its first space (all of `s` when it has
      none). */
  function FirstWord(s: string): (r: string)
    ensures StartsWith(s, r)
    decreases |s|
  {
    if |s| == 0 || s[0] == ' ' then "" else [s[0]] + FirstWord(s[1..])
  }

  /** The first word of `w + " " + rest` is `w` when `w` holds no space. */
  lemma {:induction false} FirstWordOf(w: string, rest: string)
    requires forall i | 0 <= i < |w| :: w[i] != ' '
    ensures FirstWord(w + " " + rest) == w
    decreases |w|
  {
    if |w| > 0 {
      assert (w + " " + rest)[1..] == w[1..] + " " + rest;
      FirstWordOf(w[1..], rest);
      assert [w[0]] + w[1..] == w;
    }
  }
}

=== FILE: wrappers.dfy ===
/** Optional values and error-carrying results, used for fields a document may
    lack and for the callable handlers' thrown errors. */
module Wrappers {

  /** A value that may be absent (an undefined document field). */
  datatype Option<+T> = None | Some(value: T) {

    /** The value, or a default when absent. */
    function GetOr(default: T): T {
      match this
      case Some(v) => v
      case None => default
    }
  }

  /** Either a handler's response or the error it throws. */
  datatype Result<+R, +E> = Success(value: R) | Failure(error: E)
}
